=== FILE: README.md ===
# drupal8-sso bridge logic, modelled in Dafny

This project models the decision logic of a pair of Drupal modules that
connect Drupal's users to SimpleSAMLphp, on both sides of a SAML exchange.

- **Service-provider side, `simplesamlphp_auth`.**
  - *Attribute accessor layer* (`SimplesamlphpAuthManager`): first-value
    attribute lookup that raises the attribute exception, the named
    accessors, the memoised attribute fetch, the "allow login" hook
    conjunction, the activation switch, the logout path and the storage type.
  - *Account service* (`SimplesamlphpDrupalAuth`): the role-map engine
    (`getMatchingRoles`/`evalRoleRule`), role reconciliation
    (`roleMatchSync`), the login/link/register decision tree
    (`externalLoginRegister`/`externalRegister`) and user-name/e-mail
    synchronisation with its user-name collision guard.
- **Identity-provider side, `drupalauth4ssp`.**
  - The response subscriber's redirect rewrite (`checkRedirection`) and its
    event subscription.
  - The post-update hook that introduces the `authsource` setting.
- **Composer's `InstalledVersions` registry.** Lookups over the package
  data, with the data as a parameter.

Everything is a pure function over immutable values. The host framework
appears only as parameters:

- user storage is a map from user name to account;
- ExternalAuth's `login` and `register` are their outcomes;
- module hooks are functions of the attributes;
- configuration objects are records or maps.

Calls into those services that a caller can observe are recorded in order as
an `Effect` trace: linking, registering, SAML logout, saving, finalising and
user messages. When an exception ends a call, the error value keeps the
effects already carried out and the messages already shown.

Files:

| file | module | contents |
|---|---|---|
| wrappers.dfy | Wrappers | `Option`, `Result` |
| php.dfy | Php | PHP scalars, truthiness, `== 1` |
| strings.dfy | Strings | `strpos`, `explode` (with and without limit 2), `implode`, their round trips |
| auth_config.dfy | AuthConfig | the `simplesamlphp_auth.settings` record |
| auth_manager.dfy | AuthManager | SimplesamlphpAuthManager |
| role_map.dfy | RoleMap | role-map parser and evaluator, its grammar and the parser's agreement with it |
| drupal_auth.dfy | DrupalAuth | SimplesamlphpDrupalAuth |
| redirect.dfy | RedirectSubscriber | DrupalAuthForSSPSubscriber |
| post_update.dfy | PostUpdate | drupalauth4ssp post-update hook |
| installed_versions.dfy | InstalledVersions | Composer\InstalledVersions |

## Model

| member | source | states |
|---|---|---|
| Strings.FindFirst | sp/web/modules/contrib/simplesamlphp_auth/src/Service/SimplesamlphpDrupalAuth.php:349-352 | The search `explode` performs: the first offset where the separator occurs, no earlier offset matching, and no offset at all exactly when it occurs nowhere. |
| Strings.StrPos | sp/web/modules/contrib/simplesamlphp_auth/src/Service/SimplesamlphpDrupalAuth.php:405 | PHP 7's `strpos` on a string: an offset iff the needle is non-empty and occurs, and then it is the first occurrence. An empty needle gives FALSE. |
| Strings.ExplodeOnce | sp/web/modules/contrib/simplesamlphp_auth/src/Service/SimplesamlphpDrupalAuth.php:350 | `explode` with limit 2 gives one piece when there is no separator. Otherwise it gives two pieces: joining them around the separator restores the input, and the first piece contains no separator. |
| Strings.Explode | sp/web/modules/contrib/simplesamlphp_auth/src/Service/SimplesamlphpDrupalAuth.php:349 | `explode` on a non-empty separator gives at least one piece. A string without the separator is its own single piece. Otherwise there are at least two pieces, the first being the text before the first separator. The pieces join back by `Strings.ImplodeExplode`. |
| Strings.Implode | sp/vendor/composer/InstalledVersions.php:1903 | `implode` of no pieces is "". The result starts with the first piece, followed by the separator when there is a second. `Strings.ExplodeImplode` recovers the pieces. |
| Strings.ImplodeExplode | sp/web/modules/contrib/simplesamlphp_auth/src/Service/SimplesamlphpDrupalAuth.php:349-352 | `explode` loses nothing: joining its pieces with the same separator restores every input string. |
| Strings.ExplodeImplode | sp/vendor/composer/InstalledVersions.php:1903 | Joining pieces with a separator and exploding on it returns the same pieces, provided no piece holds the separator's first character. |
| AuthManager.GetAttribute | sp/web/modules/contrib/simplesamlphp_auth/src/Service/SimplesamlphpAuthManager.php:275-285 | It succeeds exactly when the attribute exists, has a value and that first value is non-empty ("", "0" and the empty list are empty). It then returns the first value, which may be a list and is never empty. Otherwise it raises the exception naming the attribute. |
| AuthManager.GetAttributeAfterPut | sp/web/modules/contrib/simplesamlphp_auth/src/Service/SimplesamlphpAuthManager.php:275-284 | Storing a value list under a name and reading it back gives the first value, or the exception when that value is empty. |
| AuthManager.AttributeError.Message | sp/web/modules/contrib/simplesamlphp_auth/src/Service/SimplesamlphpAuthManager.php:284 | The exception text is `Error in simplesamlphp_auth.module: no valid "<attribute>" attribute set.` with the attribute name between the quotes, as the unit test expects. |
| AuthManager.GetAuthname | sp/web/modules/contrib/simplesamlphp_auth/src/Service/SimplesamlphpAuthManager.php:226-228 | It succeeds exactly when the attribute named by `unique_id` exists, has a value and its first value is non-empty. It then returns that first value; otherwise it raises the exception naming that attribute. |
| AuthManager.GetDefaultName | sp/web/modules/contrib/simplesamlphp_auth/src/Service/SimplesamlphpAuthManager.php:236-238 | It succeeds exactly when the attribute named by `user_name` exists, has a value and its first value is non-empty. It then returns that first value; otherwise it raises the exception naming that attribute. |
| AuthManager.GetDefaultEmail | sp/web/modules/contrib/simplesamlphp_auth/src/Service/SimplesamlphpAuthManager.php:246-248 | It succeeds exactly when the attribute named by `mail_attr` exists, has a value and its first value is non-empty. It then returns that first value; otherwise it raises the exception naming that attribute. |
| AuthManager.GetAttributes | sp/web/modules/contrib/simplesamlphp_auth/src/Service/SimplesamlphpAuthManager.php:256-261 | A non-empty cache is returned unchanged. An empty cache is filled from the library. The answer is always the new cache. |
| AuthManager.GetAttributesMemoised | sp/web/modules/contrib/simplesamlphp_auth/src/Service/SimplesamlphpAuthManager.php:256-261 | Once a fetch has produced attributes, every later call returns them, whatever the library would now say. |
| AuthManager.AllowUserByAttribute | sp/web/modules/contrib/simplesamlphp_auth/src/Service/SimplesamlphpAuthManager.php:293-301 | Login is allowed iff no hook answers exactly FALSE, so it is allowed when there are no hooks. Hooks are asked in order, and asking stops at the first FALSE. |
| AuthManager.IsActivated | sp/web/modules/contrib/simplesamlphp_auth/src/Service/SimplesamlphpAuthManager.php:309-314 | `activate` is compared loosely with 1. A boolean is active iff TRUE, an integer iff it is 1, a string iff it is "1", and NULL never. So truthy values other than 1, such as 2 or "yes", leave the module inactive, and an active setting is always truthy. |
| AuthManager.Logout | sp/web/modules/contrib/simplesamlphp_auth/src/Service/SimplesamlphpAuthManager.php:322-330 | A non-empty path is passed through unchanged. A falsy or missing path becomes the base path. Without a library instance nothing is logged out. |
| AuthManager.LogoutPathNeverFalsy | sp/web/modules/contrib/simplesamlphp_auth/src/Service/SimplesamlphpAuthManager.php:323-328 | With a non-empty base path, the library never receives a falsy logout destination. |
| AuthManager.GetStorage | sp/web/modules/contrib/simplesamlphp_auth/src/Service/SimplesamlphpAuthManager.php:197-203 | It returns `store.type` exactly when the library configuration exists and that value is non-empty, and NULL otherwise. |
| RoleMap.ParseCondition | sp/web/modules/contrib/simplesamlphp_auth/src/Service/SimplesamlphpDrupalAuth.php:375 | A rule part yields a condition exactly when it has at least three comma fields. |
| RoleMap.ParseRule | sp/web/modules/contrib/simplesamlphp_auth/src/Service/SimplesamlphpDrupalAuth.php:350-352 | A rule without ':' is all role id, and its body, NULL in PHP, splits into the single empty part. Otherwise the role id is the text before the first ':', which contains no ':', and the parts are the rest split on ';'. |
| RoleMap.ParseRoleMap | sp/web/modules/contrib/simplesamlphp_auth/src/Service/SimplesamlphpDrupalAuth.php:349-352 | There is one rule per pipe-separated piece of the role map. |
| RoleMap.InArray | sp/web/modules/contrib/simplesamlphp_auth/src/Service/SimplesamlphpDrupalAuth.php:397 | The scan is true iff the exact string is among the attribute's values. |
| RoleMap.AnyContains | sp/web/modules/contrib/simplesamlphp_auth/src/Service/SimplesamlphpDrupalAuth.php:404-406 | The filtered list is non-empty iff some value is a list (PHP 7's `strpos` answers NULL for it, which is not FALSE) or some string value contains the rule value, which must be non-empty. |
| RoleMap.DomainPart | sp/web/modules/contrib/simplesamlphp_auth/src/Service/SimplesamlphpDrupalAuth.php:400 | The domain is NULL exactly when there is no first value, the first value is a list, or it has no '@'. The text itself is pinned by `RoleMap.DomainComparison`. |
| RoleMap.EvalCondition | sp/web/modules/contrib/simplesamlphp_auth/src/Service/SimplesamlphpDrupalAuth.php:386-407 | A key missing from the attributes never matches, whatever the operator. An unknown operator never matches. `=` is membership of the exact string. `~=` holds iff some value is a list or contains the non-empty rule value. `@=` on an empty value list or a list-valued first value compares NULL, so it holds only for an empty rule value. |
| RoleMap.EvalPart | sp/web/modules/contrib/simplesamlphp_auth/src/Service/SimplesamlphpDrupalAuth.php:352-355 | A rule part with fewer than three comma fields never holds. Otherwise it holds exactly when the condition formed by its first three fields does. |
| RoleMap.DomainComparison | sp/web/modules/contrib/simplesamlphp_auth/src/Service/SimplesamlphpDrupalAuth.php:399-401 | `@=` on a first value `local@domain` holds iff the domain equals the rule value. |
| RoleMap.DomainComparisonWithoutAt | sp/web/modules/contrib/simplesamlphp_auth/src/Service/SimplesamlphpDrupalAuth.php:399-401 | `@=` on a first value without '@' compares NULL, so it holds only for an empty rule value. |
| RoleMap.CollectRoles | sp/web/modules/contrib/simplesamlphp_auth/src/Service/SimplesamlphpDrupalAuth.php:349-357 | The loop keeps every role keyed by itself. A role ends up in the result iff it was there before or some rule for it has a part that holds. |
| RoleMap.RuleRoles | sp/web/modules/contrib/simplesamlphp_auth/src/Service/SimplesamlphpDrupalAuth.php:339-358 | An empty or "0" role map yields no roles. Otherwise a role is matched iff some rule for it fires. Each role id maps to itself, so no role appears twice. |
| RoleMap.MatchingRoles | sp/web/modules/contrib/simplesamlphp_auth/src/Service/SimplesamlphpDrupalAuth.php:339-362 | When no module alters the roles, the answer is exactly the roles some rule grants, each keyed by itself, and nothing for an empty or "0" role map. |
| RoleMap.FormatSingleRule | sp/web/modules/contrib/simplesamlphp_auth/src/Service/SimplesamlphpDrupalAuth.php:346 | A one-rule, one-condition map is written `role:key,op,value`, the documented format. |
| RoleMap.ConditionRoundTrip | sp/web/modules/contrib/simplesamlphp_auth/src/Service/SimplesamlphpDrupalAuth.php:375 | A `key,op,value` condition parses back into its three fields. |
| RoleMap.ParseRuleAtFirstColon | sp/web/modules/contrib/simplesamlphp_auth/src/Service/SimplesamlphpDrupalAuth.php:350-352 | A rule is cut at its first ':' only, so a ':' in a value (a URL, say) stays in the body. |
| RoleMap.RuleRoundTrip | sp/web/modules/contrib/simplesamlphp_auth/src/Service/SimplesamlphpDrupalAuth.php:350-352 | A written rule parses back into its role id and its conditions, in order. |
| RoleMap.RoleMapRoundTrip | sp/web/modules/contrib/simplesamlphp_auth/src/Service/SimplesamlphpDrupalAuth.php:346-358 | A well-formed role map parses back into the same rules and conditions. |
| RoleMap.FormattedRoleMapIsTruthy | sp/web/modules/contrib/simplesamlphp_auth/src/Service/SimplesamlphpDrupalAuth.php:347 | A written role map is never a falsy string, so the rules are always evaluated. |
| RoleMap.FormattedRoleMapGrants | sp/web/modules/contrib/simplesamlphp_auth/src/Service/SimplesamlphpDrupalAuth.php:347-357 | For a well-formed map, a role is matched iff one of the conditions of a rule for it holds. |
| RoleMap.SingleRuleGrants | sp/web/modules/contrib/simplesamlphp_auth/src/Service/SimplesamlphpDrupalAuth.php:347-357 | A one-rule map grants exactly `{role: role}` when its condition holds, and nothing otherwise. |
| DrupalAuth.TextAttribute | sp/web/modules/contrib/simplesamlphp_auth/src/Service/SimplesamlphpDrupalAuth.php:247-248 | A configured attribute yields a string exactly when the lookup succeeds with a string first value. That string is non-empty. |
| DrupalAuth.SyncUserName | sp/web/modules/contrib/simplesamlphp_auth/src/Service/SimplesamlphpDrupalAuth.php:246-271 | It raises exactly when the name attribute is missing or not a string. A name nobody else holds is set, with no message. A name another account holds leaves the account unchanged, and the fixed collision message is shown once. |
| DrupalAuth.SynchronizeUserAttributes | sp/web/modules/contrib/simplesamlphp_auth/src/Service/SimplesamlphpDrupalAuth.php:242-287 | `force` enables both syncs. It raises exactly when a needed name or mail attribute is missing; a missing name raises before any message, and otherwise the exception is the mail attribute's. With name sync on, a free name is set; otherwise the name is kept. The only messages are the collision notice, also on the raising path. The mail is set to the attribute exactly when mail sync is on and `mail_attr` is configured. The save happens iff either sync is enabled. Id and roles never change. |
| DrupalAuth.SynchronizeIdempotent | sp/web/modules/contrib/simplesamlphp_auth/src/Service/SimplesamlphpDrupalAuth.php:242-287 | A second sync with the same attributes and storage leaves the account as the first sync did. |
| DrupalAuth.RoleMatchSync | sp/web/modules/contrib/simplesamlphp_auth/src/Service/SimplesamlphpDrupalAuth.php:295-329 | Afterwards the unlocked roles equal the matched set, and nothing else changes. Current minus matched roles are removed; matched minus current roles are added. The save happens iff anything changed. |
| DrupalAuth.RoleMatchSyncIdempotent | sp/web/modules/contrib/simplesamlphp_auth/src/Service/SimplesamlphpDrupalAuth.php:295-329 | A second reconciliation with the same roles changes nothing and does not save. |
| DrupalAuth.LinkHookAccounts | sp/web/modules/contrib/simplesamlphp_auth/src/Service/SimplesamlphpDrupalAuth.php:186-198 | An account results iff some hook returns one, and it is the last hook's account. Every account a hook returns is linked to the authname, the first hook's first. Every effect is the link of some hook's account, one per hook that returns an account, and there is nothing at all when none does. |
| DrupalAuth.FinishRegistration | sp/web/modules/contrib/simplesamlphp_auth/src/Service/SimplesamlphpDrupalAuth.php:227-230 | It succeeds iff the forced sync does, and returns the synced account. The earlier effects are kept as a prefix. They are followed by the sync's messages, then the save and the finalisation of that account, last. On failure the messages already shown are kept. The trace is exactly: earlier effects, messages, then save and finalise (or the exception). |
| DrupalAuth.ExternalRegister | sp/web/modules/contrib/simplesamlphp_auth/src/Service/SimplesamlphpDrupalAuth.php:146-231 | Each path that returns an account first force-syncs it. It succeeds exactly when that sync does, and returns the synced account: the existing user's (linked first, under `autoenablesaml`), the last hook account's, or the registered one's. `register` is called only for a new name with registration on and no hook account, as the first effect. A failing `register` gives NULL with the error message. Without `autoenablesaml`, an existing user name gives FALSE with the not-SAML-enabled message and a SAML logout. With no existing user and `register_users` off, the result is FALSE with exactly the hook links, the not-entitled message and a SAML logout. Every returned account was saved and finalised, last. Whenever an account is synced, the whole trace is pinned: the existing-user link, the hook links or the `register` call, then the sync's messages, then save and finalise (on an exception, only the messages). |
| DrupalAuth.RegisterExisting | sp/web/modules/contrib/simplesamlphp_auth/src/Service/SimplesamlphpDrupalAuth.php:151-177 | With `autoenablesaml` the existing account is linked first, and `register` is never called. The path succeeds exactly when the forced sync of that account does, and returns the synced account. The trace is exactly: the link, the sync's messages, then save and finalise (or the exception). Without it the user gets the message and a SAML logout to the base path, and no account. |
| DrupalAuth.RegisterAfterHooks | sp/web/modules/contrib/simplesamlphp_auth/src/Service/SimplesamlphpDrupalAuth.php:215-230 | The hook links stay first. A hook account is used without calling `register`; the path succeeds exactly when its forced sync does, and returns the synced account. Without one, `register` is called next. Its failure gives no account and the error message. Its account succeeds exactly when that account's sync does, and the synced account is returned. On both paths the trace is exactly: the hook links (and the `register` call), the sync's messages, then save and finalise (or the exception). |
| DrupalAuth.ExternalLoginRegister | sp/web/modules/contrib/simplesamlphp_auth/src/Service/SimplesamlphpDrupalAuth.php:118-132 | A successful login is never followed by registration. Without a login the result is registration's: it raises when registration raises, and is returned unchanged when there is no account or `role.eval_every_time` is off. With `role.eval_every_time` on and an account, the result is that account with exactly the matching roles. The earlier effects are followed by one save exactly when the roles changed, as `roleMatchSync` does. |
| RedirectSubscriber.CheckRedirection | idp/web/modules/contrib/drupalauth4ssp/src/EventSubscriber/DrupalAuthForSSPSubscriber.php:41-67 | Non-redirects and non-302 responses pass through unchanged, and propagation is not stopped. Any 302 to the front page with a non-empty stored destination is sent to that destination and stops, without the cookie, whatever the route. Otherwise a 302 on `user.login` with a non-empty `ReturnTo` goes there verbatim, stops and sets the cookie. Nothing else is rewritten, and the status is never changed. |
| RedirectSubscriber.LogoutTakesPrecedence | idp/web/modules/contrib/drupalauth4ssp/src/EventSubscriber/DrupalAuthForSSPSubscriber.php:48-56 | When both rewrites apply, the logout one wins and the login branch, with its cookie, never runs. |
| RedirectSubscriber.Dispatch | idp/web/modules/contrib/drupalauth4ssp/src/EventSubscriber/DrupalAuthForSSPSubscriber.php:72-76 | Only the kernel RESPONSE event reaches the handler. Any other event leaves the response untouched. |
| RedirectSubscriber.SubscribedEvents | idp/web/modules/contrib/drupalauth4ssp/src/EventSubscriber/DrupalAuthForSSPSubscriber.php:72-76 | The subscriber listens to exactly one event, the kernel RESPONSE event, with the single handler `checkRedirection`. |
| PostUpdate.AddAuthsourceParam | idp/web/modules/contrib/drupalauth4ssp/drupalauth4ssp.post_update.php:11-19 | An empty or unset `authsource` becomes 'drupal-userpass' and `cookie_name` is removed. A set `authsource` leaves the config unchanged. No other key changes, and afterwards `authsource` is always set. |
| PostUpdate.AddAuthsourceParamIdempotent | idp/web/modules/contrib/drupalauth4ssp/drupalauth4ssp.post_update.php:11-19 | Running the update twice gives the same config as running it once. |
| InstalledVersions.Lookup | sp/vendor/composer/InstalledVersions.php:1850 | A package is found iff its name is a key. The entry found is the first one under that name. |
| InstalledVersions.GetInstalledPackages | sp/vendor/composer/InstalledVersions.php:1835-1838 | The package names, one per entry, in the registry's order. |
| InstalledVersions.IsInstalled | sp/vendor/composer/InstalledVersions.php:1848-1851 | A package is installed iff its name is one of the keys. |
| InstalledVersions.InstalledPackagesAreInstalled | sp/vendor/composer/InstalledVersions.php:1835-1851 | A name is in the package list iff it is installed. |
| InstalledVersions.GetVersionRanges | sp/vendor/composer/InstalledVersions.php:1883-1904 | An unknown package raises OutOfBounds naming it. Otherwise, when no range contains a space, splitting the answer on the double-pipe separator gives, in order, the pretty version (if set), aliases, replaced and provided versions. An entry with none of them gives "". |
| InstalledVersions.ReplacedOnlyRanges | sp/vendor/composer/InstalledVersions.php:1889-1903 | An entry that only lists replaced versions yields exactly those. |
| InstalledVersions.GetVersion | sp/vendor/composer/InstalledVersions.php:1910-1921 | An unknown package raises OutOfBounds naming it. Otherwise the entry's version is returned, or NULL when it is absent. |
| InstalledVersions.GetPrettyVersion | sp/vendor/composer/InstalledVersions.php:1927-1938 | An unknown package raises OutOfBounds naming it. Otherwise the entry's pretty version is returned, or NULL when it is absent. |
| InstalledVersions.GetReference | sp/vendor/composer/InstalledVersions.php:1944-1955 | An unknown package raises OutOfBounds naming it. Otherwise the entry's reference is returned, or NULL when it is absent or NULL, as for the root project. |
| InstalledVersions.NotInstalled.Message | sp/vendor/composer/InstalledVersions.php:1886 | The exception text is `Package "<name>" is not installed`, with the package name between the quotes. |
| InstalledVersions.Reload | sp/vendor/composer/InstalledVersions.php:1961-1998 | After `reload(d)` every query (raw data, root package, package list, installed, version ranges, versions, reference) answers from `d` alone, whatever was loaded before. |

## Left out

- SAML protocol work is not modelled: `externalAuthenticate`, `isAuthenticated`, `getSimpleSamlInstance`, `getSimpleSamlConfiguration` and `checkLibrary` belong to the SimpleSAMLphp library or to PHP's class loading. The model takes their results as parameters: the attributes, whether an instance exists, and the library configuration.
- DrupalAuth.SyncUserName: the collision notice carries the user name and the other account's id. The source writes those only to the log; the message it shows is fixed text.
- Logging, the `debug` setting, `t()` translation and `watchdog_exception` are left out. Messenger messages appear only as `Notice` values, and `base_path()` is a parameter.
- Host services are parameters, not implementations:
  - User storage is a map from user name to account, so at most one account holds a name.
  - ExternalAuth `login` and `register` are their outcomes; any exception from `register` means no account.
  - `userLoginFinalize` returns the account it was given.
  - The existing-user and allow-login hooks are functions of the attributes.
- RoleMap.MatchingRoles: the user-roles alter hook is an arbitrary function of the roles and the attributes. Its contract therefore speaks only of the case where no module alters the roles.
- Accounts carry only their unlocked roles (`getRoles(TRUE)`). Locked roles and the rule that they cannot be assigned are not represented.
- `InstalledVersions::satisfies` is left out. It delegates to Composer's version parser, which is not part of this model.
- The literal package table in `InstalledVersions.php` is not transcribed; registry data is a parameter.
- Package lists are sequences of (name, entry) pairs standing for PHP arrays, which have distinct keys. `Lookup` takes the first entry under a name.
- An `aliases`/`replaced`/`provided` key that is present but NULL is not modelled. PHP 7's `array_merge` would then warn and return NULL, losing the earlier ranges.
- The settings form (`SettingsForm.php`), the config getters (`Config.php`) and the IdP metadata file only build forms or read values, so they are not modelled.
- The user cookie that `checkRedirection` sets is a flag only, because `drupalauth4ssp_set_user_cookie` is not part of this model.
- RoleMap.EvalCondition: a rule part with exactly two comma fields (a missing value) never matches, where PHP would compare against NULL. A part with one field is faithful: PHP's operator is NULL, so it falls through every case.
- List-valued attribute values are modelled as PHP 7 treats them. `strpos` and `explode` on an array give NULL, so `~=` keeps any list value, `@=` on a list-valued first value compares NULL, and `=` never matches one.
- RoleMap.EvalCondition: `in_array` and the `@=` test use PHP's loose `==`, which treats numeric strings such as "1.0" and "1" as equal. The model compares strings exactly.
- AuthManager.IsActivated: among strings, only "1" is read as equal to 1. Other strings PHP 7 reads as one (" 1", "01", "1.0", "1abc") are not.
- DrupalAuth.SynchronizeUserAttributes: a list-valued first value for the name or mail attribute ends in the `NotText` error. PHP would pass the array on to `setUsername`/`setEmail`.
- DrupalAuth.SynchronizeUserAttributes: the "no username/no e-mail available" branches are unreachable. The attribute lookup raises the attribute exception instead of returning a falsy value, so those branches appear only as the `Err` result.
- PHP is taken to be PHP 7, the platform of Drupal 8.9.13 recorded in the Composer registry. This matters for `strpos`: an empty `~=` value finds nothing in a string.
- InstalledVersions.GetRootPackage and InstalledVersions.GetRawData are plain projections of the registry. What they promise is stated in the contract of `InstalledVersions.Reload`.
- Configuration switches (`autoenablesaml`, `register_users`, `role.eval_every_time`, `sync.*`) are booleans, i.e. PHP's truthiness already applied. `activate` and the `drupalauth4ssp.settings` values keep their raw scalar value.

=== FILE: auth_config.dfy ===
/**
 * The `simplesamlphp_auth.settings` configuration object as both services of
 * the service-provider module read it. Switches are kept as booleans (the
 * truthiness PHP applies when it tests them); `activate` keeps its raw value
 * because it is compared with `== 1`.
 */
module AuthConfig {
  import Php

  datatype Settings = Settings(
    activate: Php.Value,       // 'activate'
    uniqueId: string,          // 'unique_id': attribute naming the federated user
    userName: string,          // 'user_name': attribute holding the display name
    mailAttr: string,          // 'mail_attr': attribute holding the e-mail address
    rolePopulation: string,    // 'role.population': the role map
    evalEveryTime: bool,       // 'role.eval_every_time'
    autoEnableSaml: bool,      // 'autoenablesaml'
    registerUsers: bool,       // 'register_users'
    syncMail: bool,            // 'sync.mail'
    syncUserName: bool         // 'sync.user_name'
  )
}

=== FILE: auth_manager.dfy ===
/**
 * The attribute accessor layer of the service-provider module
 * (SimplesamlphpAuthManager): first-value attribute lookup, the named
 * accessors built on it, the memoised attribute fetch, the conjunction of
 * "allow login" hook verdicts, the activation switch, the logout path and
 * the storage-type lookup. The SAML library itself is a parameter: its
 * attribute set, whether an instance exists, and its configuration.
 */
module AuthManager {
  import opened Wrappers
  import Php
  import opened AuthConfig

  /** One value of a SAML attribute: normally a string, occasionally a nested list. */
  datatype AttrValue = Text(s: string) | Items(items: seq<string>)

  /** The federated user's attributes: attribute name to its list of values. */
  type Attributes = map<string, seq<AttrValue>>

  /** PHP's `empty()` on an attribute value: "", "0" and the empty list are empty. */
  predicate IsEmpty(v: AttrValue)
  {
    match v
    case Text(s) => !Php.TruthyString(s)
    case Items(xs) => |xs| == 0
  }

  /** The attribute exception, naming the attribute that was asked for. */
  datatype AttributeError = NoValidAttribute(attribute: string)
  {
    /** The exception message; the attribute name stands between its quotes. */
    function Message(): (m: string)
      ensures |m| == |attribute| + 62
      ensures m[..46] == "Error in simplesamlphp_auth.module: no valid \""
      ensures m[46..46 + |attribute|] == attribute
      ensures m[46 + |attribute|..] == "\" attribute set."
    {
      "Error in simplesamlphp_auth.module: no valid \"" + attribute + "\" attribute set."
    }
  }

  /**
   * `getAttribute($name)`: the first value of the attribute, which is never
   * empty; a missing attribute, an empty value list or an empty first value
   * raises the attribute exception instead.
   */
  function GetAttribute(attrs: Attributes, name: string): (r: Result<AttrValue, AttributeError>)
    ensures r.Ok? <==> name in attrs && |attrs[name]| > 0 && !IsEmpty(attrs[name][0])
    ensures r.Ok? ==> r.value == attrs[name][0] && !IsEmpty(r.value)
    ensures r.Err? ==> r.error == NoValidAttribute(name)
  {
    if name in attrs && |attrs[name]| > 0 && !IsEmpty(attrs[name][0]) then
      Ok(attrs[name][0])
    else
      Err(NoValidAttribute(name))
  }

  /** Storing a value list under a name and reading the attribute back yields its first value, unless that is empty. */
  lemma GetAttributeAfterPut(attrs: Attributes, name: string, first: AttrValue, rest: seq<AttrValue>)
    ensures GetAttribute(attrs[name := [first] + rest], name)
         == (if IsEmpty(first) then Err(NoValidAttribute(name)) else Ok(first))
  {
  }

  /** `getAuthname()`: the attribute configured as 'unique_id'. */
  function GetAuthname(settings: Settings, attrs: Attributes): (r: Result<AttrValue, AttributeError>)
    ensures r.Ok? <==> settings.uniqueId in attrs && |attrs[settings.uniqueId]| > 0 && !IsEmpty(attrs[settings.uniqueId][0])
    ensures r.Ok? ==> r.value == attrs[settings.uniqueId][0]
    ensures r.Err? ==> r.error == NoValidAttribute(settings.uniqueId)
  {
    GetAttribute(attrs, settings.uniqueId)
  }

  /** `getDefaultName()`: the attribute configured as 'user_name'. */
  function GetDefaultName(settings: Settings, attrs: Attributes): (r: Result<AttrValue, AttributeError>)
    ensures r.Ok? <==> settings.userName in attrs && |attrs[settings.userName]| > 0 && !IsEmpty(attrs[settings.userName][0])
    ensures r.Ok? ==> r.value == attrs[settings.userName][0]
    ensures r.Err? ==> r.error == NoValidAttribute(settings.userName)
  {
    GetAttribute(attrs, settings.userName)
  }

  /** `getDefaultEmail()`: the attribute configured as 'mail_attr'. */
  function GetDefaultEmail(settings: Settings, attrs: Attributes): (r: Result<AttrValue, AttributeError>)
    ensures r.Ok? <==> settings.mailAttr in attrs && |attrs[settings.mailAttr]| > 0 && !IsEmpty(attrs[settings.mailAttr][0])
    ensures r.Ok? ==> r.value == attrs[settings.mailAttr][0]
    ensures r.Err? ==> r.error == NoValidAttribute(settings.mailAttr)
  {
    GetAttribute(attrs, settings.mailAttr)
  }

  /** What `getAttributes()` answers and what it leaves in its cache. */
  datatype Fetch = Fetch(attributes: Attributes, cache: Attributes)

  /**
   * `getAttributes()`: `fetched` is what the SAML library would return. The
   * library is asked only while the cache is empty (an empty array is falsy
   * in PHP), and the answer is always the cache's new contents.
   */
  function GetAttributes(cache: Attributes, fetched: Attributes): (r: Fetch)
    ensures r.attributes == r.cache
    ensures |cache| > 0 ==> r.attributes == cache
    ensures |cache| == 0 ==> r.attributes == fetched
  {
    if |cache| == 0 then Fetch(fetched, fetched) else Fetch(cache, cache)
  }

  /** Once a fetch produced attributes, later calls return them whatever the library would say. */
  lemma GetAttributesMemoised(cache: Attributes, first: Attributes, later: Attributes)
    requires |GetAttributes(cache, first).attributes| > 0
    ensures GetAttributes(GetAttributes(cache, first).cache, later).attributes
         == GetAttributes(cache, first).attributes
  {
  }

  /**
   * `allowUserByAttribute()`: each implementation of the "allow login" hook
   * is asked in turn; the first that answers exactly FALSE denies the login
   * and stops the loop. `invoked` counts the hooks that were asked.
   */
  method AllowUserByAttribute(hooks: seq<Attributes -> Php.Value>, attrs: Attributes)
    returns (allowed: bool, invoked: nat)
    ensures allowed <==> forall i :: 0 <= i < |hooks| ==> hooks[i](attrs) != Php.Bool(false)
    ensures allowed ==> invoked == |hooks|
    ensures !allowed ==> 1 <= invoked <= |hooks| && hooks[invoked - 1](attrs) == Php.Bool(false)
    ensures forall i :: 0 <= i < invoked - 1 ==> hooks[i](attrs) != Php.Bool(false)
  {
    invoked := 0;
    while invoked < |hooks|
      invariant invoked <= |hooks|
      invariant forall i :: 0 <= i < invoked ==> hooks[i](attrs) != Php.Bool(false)
    {
      var verdict := hooks[invoked](attrs);
      invoked := invoked + 1;
      if verdict == Php.Bool(false) {
        return false, invoked;
      }
    }
    return true, invoked;
  }

  /**
   * `isActivated()`: the 'activate' setting compares loosely equal to 1, so
   * a truthy value other than 1 (the integer 2, the string "yes") leaves
   * the module inactive.
   */
  function IsActivated(settings: Settings): (r: bool)
    ensures r ==> Php.Truthy(settings.activate)
    ensures settings.activate.Null? ==> !r
    ensures settings.activate.Bool? ==> (r <==> settings.activate.b)
    ensures settings.activate.Int? ==> (r <==> settings.activate.i == 1)
    ensures settings.activate.Str? ==> (r <==> settings.activate.s == "1")
  {
    Php.LooselyEqualsOne(settings.activate)
  }

  /**
   * `logout($redirect_path)`: the path handed to the SAML library's logout,
   * or None when there is no library instance to log out of. A falsy path
   * is replaced by the site's base path.
   */
  function Logout(redirectPath: Option<string>, basePath: string, hasInstance: bool): (r: Option<string>)
    ensures r.Some? <==> hasInstance
    ensures r.Some? && redirectPath.Some? && Php.TruthyString(redirectPath.value) ==> r.value == redirectPath.value
    ensures r.Some? && !(redirectPath.Some? && Php.TruthyString(redirectPath.value)) ==> r.value == basePath
  {
    var path := if redirectPath.Some? && Php.TruthyString(redirectPath.value) then redirectPath.value else basePath;
    if hasInstance then Some(path) else None
  }

  /** With a non-empty base path, the library is never handed a falsy logout destination. */
  lemma LogoutPathNeverFalsy(redirectPath: Option<string>, basePath: string)
    requires Php.TruthyString(basePath)
    ensures Php.TruthyString(Logout(redirectPath, basePath, true).value)
  {
  }

  /**
   * `getStorage()`: the 'store.type' value of the SAML library's
   * configuration when that configuration is available and the value is
   * non-empty, NULL (None) otherwise.
   */
  function GetStorage(libraryConfig: Option<map<string, Php.Value>>): (r: Option<Php.Value>)
    ensures r.Some? <==> libraryConfig.Some? && "store.type" in libraryConfig.value
                         && Php.Truthy(libraryConfig.value["store.type"])
    ensures r.Some? ==> r.value == libraryConfig.value["store.type"]
  {
    match libraryConfig
    case None => None
    case Some(c) =>
      if "store.type" in c && Php.Truthy(c["store.type"]) then Some(c["store.type"]) else None
  }
}

=== FILE: drupal_auth.dfy ===
/**
 * The account-reconciliation service of the service-provider module
 * (SimplesamlphpDrupalAuth): log in or register the local account for a
 * federated user, link existing accounts, synchronise user name and e-mail
 * from SAML attributes, and reconcile the account's roles with the role map.
 *
 * The host services are parameters: user storage is a map from user name to
 * account, ExternalAuth's `login` and `register` are given outcomes, module
 * hooks are functions of the attributes. Every call the code makes into them
 * that the caller can observe is recorded as an `Effect`.
 */
module DrupalAuth {
  import opened Wrappers
  import Php
  import opened AuthConfig
  import opened AuthManager
  import RoleMap

  /** A local account; `roles` are its unlocked roles (`getRoles(TRUE)`). */
  datatype Account = Account(id: int, name: string, mail: string, roles: set<string>)

  /** User storage as `loadByProperties(['name' => $n])` sees it: the account holding each user name. */
  type UsersByName = map<string, Account>

  /**
   * Messages shown to the user (the messenger service). The texts shown are
   * fixed; `UsernameTaken` also carries the user name and the other
   * account's id, which the source passes only to its logger.
   */
  datatype Notice =
    | UsernameTaken(name: string, existingId: int)
    | NotSamlEnabled
    | NotEntitled
    | RegistrationFailed

  /** Calls into host services whose order and arguments the caller can observe. */
  datatype Effect =
    | Linked(authname: string, uid: int)       // ExternalAuth::linkExistingAccount
    | RegisterCalled(authname: string)         // ExternalAuth::register
    | SamlLogout(path: string)                 // SimplesamlphpAuthManager::logout
    | Saved(uid: int)                          // $account->save()
    | Finalized(uid: int)                      // ExternalAuth::userLoginFinalize
    | Message(notice: Notice)

  /** Why a synchronisation aborted: the attribute exception, or a first value that is a list rather than a string. */
  datatype SyncError = Attribute(cause: AttributeError) | NotText(attribute: string)

  /** A configured attribute's first value, required to be a string. */
  function TextAttribute(attrs: Attributes, name: string): (r: Result<string, SyncError>)
    ensures r.Ok? <==> GetAttribute(attrs, name).Ok? && GetAttribute(attrs, name).value.Text?
    ensures r.Ok? ==> Text(r.value) == attrs[name][0] && Php.TruthyString(r.value)
  {
    match GetAttribute(attrs, name)
    case Err(e) => Err(Attribute(e))
    case Ok(Text(s)) => Ok(s)
    case Ok(Items(_)) => Err(NotText(name))
  }

  /** The account after synchronisation, whether it was saved, and the messages shown. */
  datatype Synced = Synced(account: Account, saved: bool, notices: seq<Notice>)

  /** A synchronisation that raised: the exception, and the messages already shown before it. */
  datatype SyncAbort = SyncAbort(cause: SyncError, notices: seq<Notice>)

  /** The user name is free for `account`: nobody holds it, or `account` itself does. */
  predicate NameFreeFor(users: UsersByName, name: string, account: Account)
  {
    name !in users || users[name].id == account.id
  }

  /** The user-name half of `synchronizeUserAttributes`, with its collision guard. */
  function SyncUserName(attrs: Attributes, users: UsersByName, settings: Settings, account: Account): (r: Result<Synced, SyncError>)
    ensures r.Err? <==> TextAttribute(attrs, settings.userName).Err?
    ensures r.Err? ==> r.error == TextAttribute(attrs, settings.userName).error
    ensures r.Ok? ==> var name := TextAttribute(attrs, settings.userName).value;
      && (NameFreeFor(users, name, account) ==> r.value == Synced(account.(name := name), false, []))
      && (!NameFreeFor(users, name, account) ==> r.value == Synced(account, false, [UsernameTaken(name, users[name].id)]))
  {
    match TextAttribute(attrs, settings.userName)
    case Err(e) => Err(e)
    case Ok(name) =>
      if NameFreeFor(users, name, account) then Ok(Synced(account.(name := name), false, []))
      else Ok(Synced(account, false, [UsernameTaken(name, users[name].id)]))
  }

  /**
   * The messages the user-name sync shows: one collision notice when the
   * name is synced and another account already holds it, none otherwise.
   */
  function NameNotices(settings: Settings, attrs: Attributes, users: UsersByName, account: Account, force: bool): seq<Notice>
  {
    var name := TextAttribute(attrs, settings.userName);
    if (force || settings.syncUserName) && name.Ok? && !NameFreeFor(users, name.value, account)
    then [UsernameTaken(name.value, users[name.value].id)]
    else []
  }

  /**
   * `synchronizeUserAttributes($account, $force)`. The user name is synced
   * when forced or 'sync.user_name' is set, unless another account already
   * holds the new name; the e-mail when forced or 'sync.mail' is set and a
   * mail attribute is configured; the account is saved when either sync is
   * enabled. A missing attribute aborts with its exception, after any
   * collision notice was shown.
   */
  function SynchronizeUserAttributes(
    settings: Settings, attrs: Attributes, users: UsersByName, account: Account, force: bool): (r: Result<Synced, SyncAbort>)
    ensures r.Err? <==>
      || ((force || settings.syncUserName) && TextAttribute(attrs, settings.userName).Err?)
      || ((force || settings.syncMail) && Php.TruthyString(settings.mailAttr) && TextAttribute(attrs, settings.mailAttr).Err?)
    ensures (force || settings.syncUserName) && TextAttribute(attrs, settings.userName).Err? ==>
      r == Err(SyncAbort(TextAttribute(attrs, settings.userName).error, []))
    ensures r.Err? && !((force || settings.syncUserName) && TextAttribute(attrs, settings.userName).Err?) ==>
      r.error.cause == TextAttribute(attrs, settings.mailAttr).error
    ensures r.Err? ==> r.error.notices == NameNotices(settings, attrs, users, account, force)
    ensures r.Ok? ==> r.value.notices == NameNotices(settings, attrs, users, account, force)
    ensures r.Ok? ==> r.value.saved <==> force || settings.syncMail || settings.syncUserName
    ensures r.Ok? ==> r.value.account.id == account.id && r.value.account.roles == account.roles
    ensures r.Ok? && (force || settings.syncUserName) && TextAttribute(attrs, settings.userName).Ok?
            && NameFreeFor(users, TextAttribute(attrs, settings.userName).value, account) ==>
      r.value.account.name == TextAttribute(attrs, settings.userName).value
    ensures r.Ok? && !((force || settings.syncUserName) && TextAttribute(attrs, settings.userName).Ok?
                       && NameFreeFor(users, TextAttribute(attrs, settings.userName).value, account)) ==>
      r.value.account.name == account.name
    ensures r.Ok? && !((force || settings.syncMail) && Php.TruthyString(settings.mailAttr)) ==>
      r.value.account.mail == account.mail
    ensures r.Ok? && (force || settings.syncMail) && Php.TruthyString(settings.mailAttr) ==>
      TextAttribute(attrs, settings.mailAttr) == Ok(r.value.account.mail)
  {
    var syncMail := force || settings.syncMail;
    var syncName := force || settings.syncUserName;
    var named := if syncName then SyncUserName(attrs, users, settings, account) else Ok(Synced(account, false, []));
    match named
    case Err(e) => Err(SyncAbort(e, []))
    case Ok(afterName) =>
      if syncMail && Php.TruthyString(settings.mailAttr) then
        match TextAttribute(attrs, settings.mailAttr)
        case Err(e) => Err(SyncAbort(e, afterName.notices))
        case Ok(mail) => Ok(Synced(afterName.account.(mail := mail), syncMail || syncName, afterName.notices))
      else
        Ok(Synced(afterName.account, syncMail || syncName, afterName.notices))
  }

  /** Synchronising a second time with the same attributes and storage changes nothing further. */
  lemma SynchronizeIdempotent(settings: Settings, attrs: Attributes, users: UsersByName, account: Account, force: bool)
    requires SynchronizeUserAttributes(settings, attrs, users, account, force).Ok?
    ensures SynchronizeUserAttributes(settings, attrs, users,
              SynchronizeUserAttributes(settings, attrs, users, account, force).value.account, force).Ok?
    ensures SynchronizeUserAttributes(settings, attrs, users,
              SynchronizeUserAttributes(settings, attrs, users, account, force).value.account, force).value.account
         == SynchronizeUserAttributes(settings, attrs, users, account, force).value.account
  {
  }

  /** What `roleMatchSync` did: the account afterwards, the roles removed and added, and whether it saved. */
  datatype RoleSync = RoleSync(account: Account, removed: set<string>, added: set<string>, saved: bool)

  /**
   * `roleMatchSync($account)` given the matching roles: removes the
   * account's unlocked roles that do not match, adds the matching ones it
   * lacks, and saves once when it changed anything.
   */
  function RoleMatchSync(account: Account, matching: set<string>): (r: RoleSync)
    ensures r.account.roles == matching
    ensures r.account == account.(roles := matching)
    ensures r.removed == account.roles - matching && r.added == matching - account.roles
    ensures r.saved <==> account.roles != matching
  {
    var removed := account.roles - matching;
    var added := matching - account.roles;
    RoleSync(account.(roles := (account.roles - removed) + added), removed, added, removed != {} || added != {})
  }

  /** Reconciling roles twice in a row: the second pass finds nothing to do and does not save. */
  lemma RoleMatchSyncIdempotent(account: Account, matching: set<string>)
    ensures RoleMatchSync(RoleMatchSync(account, matching).account, matching).account == RoleMatchSync(account, matching).account
    ensures !RoleMatchSync(RoleMatchSync(account, matching).account, matching).saved
  {
  }

  /** The outcome of a login or registration attempt: the account (None for PHP's FALSE/NULL) and the effects, in order. */
  datatype Outcome = Outcome(account: Option<Account>, effects: seq<Effect>)

  /** An attempt that raised: the exception, and the effects carried out before it. */
  datatype Failure = Failure(cause: SyncError, effects: seq<Effect>)

  /** The effects of an attempt, whether it returned or raised. */
  function EffectsOf(r: Result<Outcome, Failure>): seq<Effect>
  {
    match r
    case Ok(o) => o.effects
    case Err(f) => f.effects
  }

  /** The messenger calls for a list of notices, in order. */
  function Shown(notices: seq<Notice>): (effects: seq<Effect>)
    ensures |effects| == |notices|
    ensures forall k | 0 <= k < |notices| :: effects[k] == Message(notices[k])
  {
    seq(|notices|, k requires 0 <= k < |notices| => Message(notices[k]))
  }

  /** The request's context: settings, attributes, storage, and the host services' answers. */
  datatype Env = Env(
    settings: Settings,
    attrs: Attributes,
    users: UsersByName,
    existingUserHooks: seq<Attributes -> Option<Account>>,   // hook_simplesamlphp_auth_existing_user
    registerResult: Option<Account>,                           // ExternalAuth::register; None when it throws
    alterRoles: (map<string, string>, Attributes) -> map<string, string>,  // hook_simplesamlphp_auth_user_roles_alter
    basePath: string)

  /** No existing-user hook supplies an account for these attributes. */
  predicate NoHookAccount(hooks: seq<Attributes -> Option<Account>>, attrs: Attributes)
  {
    forall i | 0 <= i < |hooks| :: hooks[i](attrs).None?
  }

  /** How many of the hooks return an account for these attributes. */
  function HookAccountCount(hooks: seq<Attributes -> Option<Account>>, attrs: Attributes): nat
  {
    if |hooks| == 0 then 0
    else (if hooks[0](attrs).Some? then 1 else 0) + HookAccountCount(hooks[1..], attrs)
  }

  /**
   * The `simplesamlphp_auth_existing_user` loop: each hook that returns an
   * account is linked to the authname, and the last such account is kept.
   */
  function LinkHookAccounts(authname: string, hooks: seq<Attributes -> Option<Account>>, attrs: Attributes): (r: Outcome)
    ensures r.account.Some? <==> !NoHookAccount(hooks, attrs)
    ensures r.account.Some? ==> exists i :: 0 <= i < |hooks| && hooks[i](attrs) == r.account
                                 && forall j :: i < j < |hooks| ==> hooks[j](attrs).None?
    ensures forall e | e in r.effects :: e.Linked? && e.authname == authname
    ensures forall i | 0 <= i < |hooks| && hooks[i](attrs).Some? :: Linked(authname, hooks[i](attrs).value.id) in r.effects
    ensures forall e | e in r.effects :: exists i :: 0 <= i < |hooks| && hooks[i](attrs).Some? && e == Linked(authname, hooks[i](attrs).value.id)
    ensures |r.effects| == HookAccountCount(hooks, attrs)
    ensures |hooks| > 0 && hooks[0](attrs).Some? ==> r.effects[0] == Linked(authname, hooks[0](attrs).value.id)
    ensures NoHookAccount(hooks, attrs) ==> r.effects == []
    decreases |hooks|
  {
    if |hooks| == 0 then Outcome(None, [])
    else
      var rest := LinkHookAccounts(authname, hooks[1..], attrs);
      assert forall j :: 0 <= j < |hooks| - 1 ==> hooks[1..][j] == hooks[j + 1];
      match hooks[0](attrs)
      case None => rest
      case Some(a) =>
        Outcome(if rest.account.Some? then rest.account else Some(a), [Linked(authname, a.id)] + rest.effects)
  }

  /**
   * Synchronise attributes (forced) on the chosen account, which saves it,
   * and finalise the login. `effects` are those carried out before.
   */
  function FinishRegistration(env: Env, authname: string, account: Account, effects: seq<Effect>): (r: Result<Outcome, Failure>)
    ensures r.Ok? <==> SynchronizeUserAttributes(env.settings, env.attrs, env.users, account, true).Ok?
    ensures r.Ok? ==> r.value.account == Some(SynchronizeUserAttributes(env.settings, env.attrs, env.users, account, true).value.account)
    ensures r.Ok? ==> r.value.account.value.id == account.id
    ensures |EffectsOf(r)| >= |effects| && EffectsOf(r)[..|effects|] == effects
    ensures forall k | 0 <= k < |effects| :: EffectsOf(r)[k] == effects[k]
    ensures forall e | e in EffectsOf(r) :: e in effects || e.Message? || e.Saved? || e.Finalized?
    ensures r.Ok? ==> var n := |r.value.effects|;
      && n == |effects| + |SynchronizeUserAttributes(env.settings, env.attrs, env.users, account, true).value.notices| + 2
      && r.value.effects[|effects|..n - 2] == Shown(SynchronizeUserAttributes(env.settings, env.attrs, env.users, account, true).value.notices)
      && r.value.effects[n - 2] == Saved(account.id) && r.value.effects[n - 1] == Finalized(account.id)
    ensures r.Err? ==> r.error.cause == SynchronizeUserAttributes(env.settings, env.attrs, env.users, account, true).error.cause
    ensures r.Err? ==> r.error.effects[|effects|..] == Shown(SynchronizeUserAttributes(env.settings, env.attrs, env.users, account, true).error.notices)
    ensures var s := SynchronizeUserAttributes(env.settings, env.attrs, env.users, account, true);
      && (r.Ok? ==> r.value.effects == effects + Shown(s.value.notices) + [Saved(account.id), Finalized(account.id)])
      && (r.Err? ==> r.error.effects == effects + Shown(s.error.notices))
  {
    match SynchronizeUserAttributes(env.settings, env.attrs, env.users, account, true)
    case Err(e) =>
      var all := effects + Shown(e.notices);
      assert all[..|effects|] == effects && all[|effects|..] == Shown(e.notices);
      Err(Failure(e.cause, all))
    case Ok(s) =>
      var tail := Shown(s.notices) + [Saved(account.id), Finalized(account.id)];
      var all := effects + tail;
      assert all[..|effects|] == effects;
      assert all[|effects|..|all| - 2] == Shown(s.notices);
      Ok(Outcome(Some(s.account), all))
  }

  /** A returned account has been saved and its login finalised, as the last two effects. */
  predicate FinalizedLast(r: Result<Outcome, Failure>)
  {
    r.Ok? && r.value.account.Some? ==>
      |r.value.effects| >= 2 && r.value.effects[|r.value.effects| - 1] == Finalized(r.value.account.value.id)
      && r.value.effects[|r.value.effects| - 2] == Saved(r.value.account.value.id)
  }

  /**
   * The branch of `externalRegister` for an authname that is already some
   * account's user name: link it when 'autoenablesaml' is set, otherwise
   * reject the user with a message and a SAML logout.
   */
  function RegisterExisting(env: Env, authname: string): (r: Result<Outcome, Failure>)
    requires authname in env.users
    ensures !env.settings.autoEnableSaml ==> r == Ok(Outcome(None, [Message(NotSamlEnabled), SamlLogout(env.basePath)]))
    ensures env.settings.autoEnableSaml ==>
      && |EffectsOf(r)| > 0 && EffectsOf(r)[0] == Linked(authname, env.users[authname].id)
      && RegisterCalled(authname) !in EffectsOf(r)
      && (r.Ok? ==> r.value.account.Some? && r.value.account.value.id == env.users[authname].id)
    ensures env.settings.autoEnableSaml ==>
      && (r.Ok? <==> SynchronizeUserAttributes(env.settings, env.attrs, env.users, env.users[authname], true).Ok?)
      && (r.Ok? ==> r.value.account == Some(SynchronizeUserAttributes(env.settings, env.attrs, env.users, env.users[authname], true).value.account))
    // The whole trace: the link, the sync's notices, then save and finalise (or the exception).
    ensures env.settings.autoEnableSaml ==>
      var x := env.users[authname];
      var s := SynchronizeUserAttributes(env.settings, env.attrs, env.users, x, true);
      && (r.Ok? ==> r.value.effects == [Linked(authname, x.id)] + Shown(s.value.notices) + [Saved(x.id), Finalized(x.id)])
      && (r.Err? ==> r.error.effects == [Linked(authname, x.id)] + Shown(s.error.notices))
    ensures FinalizedLast(r)
  {
    var existing := env.users[authname];
    if env.settings.autoEnableSaml then
      FinishRegistration(env, authname, existing, [Linked(authname, existing.id)])
    else
      Ok(Outcome(None, [Message(NotSamlEnabled), SamlLogout(env.basePath)]))
  }

  /**
   * The tail of `externalRegister` once registration is allowed: finish
   * with the hook account if there is one, otherwise call `register` and
   * finish with its account, or report the failure. `hooked` is the
   * outcome of the existing-user hooks.
   */
  function RegisterAfterHooks(env: Env, authname: string, hooked: Outcome): (r: Result<Outcome, Failure>)
    requires forall e | e in hooked.effects :: e.Linked?
    ensures |EffectsOf(r)| >= |hooked.effects| && forall k | 0 <= k < |hooked.effects| :: EffectsOf(r)[k] == hooked.effects[k]
    ensures hooked.account.Some? ==>
      && RegisterCalled(authname) !in EffectsOf(r)
      && (r.Ok? ==> r.value.account.Some? && r.value.account.value.id == hooked.account.value.id)
      && (r.Ok? <==> SynchronizeUserAttributes(env.settings, env.attrs, env.users, hooked.account.value, true).Ok?)
      && (r.Ok? ==> r.value.account == Some(SynchronizeUserAttributes(env.settings, env.attrs, env.users, hooked.account.value, true).value.account))
    ensures hooked.account.None? ==>
      && |EffectsOf(r)| > |hooked.effects| && EffectsOf(r)[|hooked.effects|] == RegisterCalled(authname)
      && (env.registerResult.None? ==>
            r == Ok(Outcome(None, hooked.effects + [RegisterCalled(authname), Message(RegistrationFailed)])))
      && (env.registerResult.Some? ==>
            (r.Ok? <==> SynchronizeUserAttributes(env.settings, env.attrs, env.users, env.registerResult.value, true).Ok?)
            && (r.Ok? ==> r.value.account.Some? && r.value.account.value.id == env.registerResult.value.id)
            && (r.Ok? ==> r.value.account == Some(SynchronizeUserAttributes(env.settings, env.attrs, env.users, env.registerResult.value, true).value.account)))
    // The whole trace when an account is finalised: the hook links (and the `register` call), the sync's
    // notices, then save and finalise (or the exception).
    ensures hooked.account.Some? ==>
      var x := hooked.account.value;
      var s := SynchronizeUserAttributes(env.settings, env.attrs, env.users, x, true);
      && (r.Ok? ==> r.value.effects == hooked.effects + Shown(s.value.notices) + [Saved(x.id), Finalized(x.id)])
      && (r.Err? ==> r.error.effects == hooked.effects + Shown(s.error.notices))
    ensures hooked.account.None? && env.registerResult.Some? ==>
      var x := env.registerResult.value;
      var s := SynchronizeUserAttributes(env.settings, env.attrs, env.users, x, true);
      && (r.Ok? ==> r.value.effects == hooked.effects + [RegisterCalled(authname)] + Shown(s.value.notices) + [Saved(x.id), Finalized(x.id)])
      && (r.Err? ==> r.error.effects == hooked.effects + [RegisterCalled(authname)] + Shown(s.error.notices))
    ensures FinalizedLast(r)
  {
    if hooked.account.Some? then
      FinishRegistration(env, authname, hooked.account.value, hooked.effects)
    else
      match env.registerResult
      case None => Ok(Outcome(None, hooked.effects + [RegisterCalled(authname), Message(RegistrationFailed)]))
      case Some(a) =>
        var called := hooked.effects + [RegisterCalled(authname)];
        FinishRegistration(env, authname, a, called)
  }

  /**
   * `externalRegister($authname)`. An existing account with that user name
   * is linked when 'autoenablesaml' is set and rejected (with a SAML logout)
   * otherwise. Without one, hooks may supply an account to link (only with
   * 'autoenablesaml'); then, unless 'register_users' is off (reject with a
   * SAML logout), the hook account or a newly registered one is synchronised
   * and the login finalised. A failing `register` leaves no account.
   */
  function ExternalRegister(env: Env, authname: string): (r: Result<Outcome, Failure>)
    // An existing account with the authname as its user name.
    ensures authname in env.users && !env.settings.autoEnableSaml ==>
      r == Ok(Outcome(None, [Message(NotSamlEnabled), SamlLogout(env.basePath)]))
    ensures authname in env.users && env.settings.autoEnableSaml ==>
      && |EffectsOf(r)| > 0 && EffectsOf(r)[0] == Linked(authname, env.users[authname].id)
      && RegisterCalled(authname) !in EffectsOf(r)
      && (r.Ok? <==> SynchronizeUserAttributes(env.settings, env.attrs, env.users, env.users[authname], true).Ok?)
      && (r.Ok? ==> r.value.account == Some(SynchronizeUserAttributes(env.settings, env.attrs, env.users, env.users[authname], true).value.account))
    // No such account, and registration is off: the hook links stand, then the user is turned away.
    ensures authname !in env.users && !env.settings.registerUsers ==>
      r == Ok(Outcome(None, (if env.settings.autoEnableSaml
                             then LinkHookAccounts(authname, env.existingUserHooks, env.attrs).effects else [])
                            + [Message(NotEntitled), SamlLogout(env.basePath)]))
    // No such account, registration on, and a hook supplies one.
    ensures authname !in env.users && env.settings.registerUsers && env.settings.autoEnableSaml
            && !NoHookAccount(env.existingUserHooks, env.attrs) ==>
      && RegisterCalled(authname) !in EffectsOf(r)
      && (var hook := LinkHookAccounts(authname, env.existingUserHooks, env.attrs).account.value;
          && (r.Ok? <==> SynchronizeUserAttributes(env.settings, env.attrs, env.users, hook, true).Ok?)
          && (r.Ok? ==> r.value.account == Some(SynchronizeUserAttributes(env.settings, env.attrs, env.users, hook, true).value.account)))
      && (r.Ok? ==>
            && r.value.account.Some?
            && exists i :: 0 <= i < |env.existingUserHooks| && env.existingUserHooks[i](env.attrs).Some?
                 && r.value.account.value.id == env.existingUserHooks[i](env.attrs).value.id
                 && forall j :: i < j < |env.existingUserHooks| ==> env.existingUserHooks[j](env.attrs).None?)
    // No such account, registration on, and no hook account: register.
    ensures authname !in env.users && env.settings.registerUsers
            && (!env.settings.autoEnableSaml || NoHookAccount(env.existingUserHooks, env.attrs)) ==>
      && |EffectsOf(r)| > 0 && EffectsOf(r)[0] == RegisterCalled(authname)
      && (env.registerResult.None? ==> r == Ok(Outcome(None, [RegisterCalled(authname), Message(RegistrationFailed)])))
      && (env.registerResult.Some? ==>
            (r.Ok? <==> SynchronizeUserAttributes(env.settings, env.attrs, env.users, env.registerResult.value, true).Ok?)
            && (r.Ok? ==> r.value.account == Some(SynchronizeUserAttributes(env.settings, env.attrs, env.users, env.registerResult.value, true).value.account)))
    // The whole trace whenever an account is finalised: what came before (the link of the existing account,
    // the hook links, or the `register` call), the sync's notices, then save and finalise (or the exception).
    ensures authname in env.users && env.settings.autoEnableSaml ==>
      var x := env.users[authname];
      var s := SynchronizeUserAttributes(env.settings, env.attrs, env.users, x, true);
      && (r.Ok? ==> r.value.effects == [Linked(authname, x.id)] + Shown(s.value.notices) + [Saved(x.id), Finalized(x.id)])
      && (r.Err? ==> r.error.effects == [Linked(authname, x.id)] + Shown(s.error.notices))
    ensures authname !in env.users && env.settings.registerUsers && env.settings.autoEnableSaml
            && !NoHookAccount(env.existingUserHooks, env.attrs) ==>
      var hooked := LinkHookAccounts(authname, env.existingUserHooks, env.attrs);
      var x := hooked.account.value;
      var s := SynchronizeUserAttributes(env.settings, env.attrs, env.users, x, true);
      && (r.Ok? ==> r.value.effects == hooked.effects + Shown(s.value.notices) + [Saved(x.id), Finalized(x.id)])
      && (r.Err? ==> r.error.effects == hooked.effects + Shown(s.error.notices))
    ensures authname !in env.users && env.settings.registerUsers
            && (!env.settings.autoEnableSaml || NoHookAccount(env.existingUserHooks, env.attrs))
            && env.registerResult.Some? ==>
      var x := env.registerResult.value;
      var s := SynchronizeUserAttributes(env.settings, env.attrs, env.users, x, true);
      && (r.Ok? ==> r.value.effects == [RegisterCalled(authname)] + Shown(s.value.notices) + [Saved(x.id), Finalized(x.id)])
      && (r.Err? ==> r.error.effects == [RegisterCalled(authname)] + Shown(s.error.notices))
    // Every account returned has been saved and its login finalised, last.
    ensures FinalizedLast(r)
  {
    if authname in env.users then
      RegisterExisting(env, authname)
    else
      var hooked := if env.settings.autoEnableSaml
                    then LinkHookAccounts(authname, env.existingUserHooks, env.attrs)
                    else Outcome(None, []);
      if !env.settings.registerUsers then
        Ok(Outcome(None, hooked.effects + [Message(NotEntitled), SamlLogout(env.basePath)]))
      else if hooked.account.Some? then
        RegisterAfterHooks(env, authname, hooked)
      else
        assert hooked.effects == [];
        assert hooked.effects + [RegisterCalled(authname)] == [RegisterCalled(authname)];
        assert hooked.effects + [RegisterCalled(authname), Message(RegistrationFailed)] == [RegisterCalled(authname), Message(RegistrationFailed)];
        RegisterAfterHooks(env, authname, hooked)
  }

  /**
   * `externalLoginRegister($authname)`: log in through ExternalAuth (`login`
   * is its answer), register only when that yields no account, and
   * reconcile roles with the role map when an account results and
   * 'role.eval_every_time' is set.
   */
  function ExternalLoginRegister(env: Env, authname: string, login: Option<Account>): (r: Result<Outcome, Failure>)
    ensures login.Some? ==> r.Ok? && r.value.account.Some? && r.value.account.value.id == login.value.id
    ensures login.Some? ==> forall e | e in r.value.effects :: e.Saved?
    ensures login.Some? && !env.settings.evalEveryTime ==> r == Ok(Outcome(login, []))
    ensures login.None? && !env.settings.evalEveryTime ==> r == ExternalRegister(env, authname)
    ensures login.None? ==> (r.Err? <==> ExternalRegister(env, authname).Err?)
    ensures login.None? && r.Err? ==> r == ExternalRegister(env, authname)
    ensures login.None? && r.Ok? ==>
      && (r.value.account.Some? <==> ExternalRegister(env, authname).value.account.Some?)
      && (r.value.account.Some? ==> r.value.account.value.id == ExternalRegister(env, authname).value.account.value.id)
      && |ExternalRegister(env, authname).value.effects| <= |r.value.effects|
      && r.value.effects[..|ExternalRegister(env, authname).value.effects|] == ExternalRegister(env, authname).value.effects
    ensures r.Ok? && r.value.account.Some? && env.settings.evalEveryTime ==>
      r.value.account.value.roles == RoleMap.MatchingRoles(env.settings.rolePopulation, env.attrs, env.alterRoles).Values
    // With 'role.eval_every_time', the account is the logged-in or registered one with exactly the
    // matching roles, saved once after the earlier effects when its roles changed.
    ensures login.Some? && env.settings.evalEveryTime ==>
      var matching := RoleMap.MatchingRoles(env.settings.rolePopulation, env.attrs, env.alterRoles).Values;
      r == Ok(Outcome(Some(login.value.(roles := matching)),
                      if login.value.roles != matching then [Saved(login.value.id)] else []))
    ensures login.None? && env.settings.evalEveryTime && ExternalRegister(env, authname).Ok?
            && ExternalRegister(env, authname).value.account.Some? ==>
      var matching := RoleMap.MatchingRoles(env.settings.rolePopulation, env.attrs, env.alterRoles).Values;
      var base := ExternalRegister(env, authname).value;
      r == Ok(Outcome(Some(base.account.value.(roles := matching)),
                      base.effects + if base.account.value.roles != matching then [Saved(base.account.value.id)] else []))
    ensures login.None? && ExternalRegister(env, authname).Ok? && ExternalRegister(env, authname).value.account.None? ==>
      r == ExternalRegister(env, authname)
  {
    var first := if login.Some? then Ok(Outcome(login, [])) else ExternalRegister(env, authname);
    match first
    case Err(e) => Err(e)
    case Ok(o) =>
      if o.account.Some? && env.settings.evalEveryTime then
        var matching := RoleMap.MatchingRoles(env.settings.rolePopulation, env.attrs, env.alterRoles).Values;
        var rs := RoleMatchSync(o.account.value, matching);
        var all := o.effects + (if rs.saved then [Saved(rs.account.id)] else []);
        assert all[..|o.effects|] == o.effects;
        Ok(Outcome(Some(rs.account), all))
      else
        Ok(o)
  }
}

=== FILE: installed_versions.dfy ===
/**
 * Composer's installed-package registry (Composer\InstalledVersions) as
 * pure queries over its data: the root package and the ordered array of
 * installed packages. The data itself is a parameter, so `reload` is the
 * replacement of one registry value by another.
 */
module InstalledVersions {
  import opened Wrappers
  import opened Strings

  /**
   * One package entry. A field is None when its key is absent (or, for the
   * scalar fields, NULL, which `isset` treats the same way).
   */
  datatype Package = Package(
    prettyVersion: Option<string>,
    version: Option<string>,
    reference: Option<string>,
    aliases: Option<seq<string>>,
    replaced: Option<seq<string>>,
    provided: Option<seq<string>>)

  /**
   * The registry: the root package with its name, and the installed
   * packages in array order, keyed by package name.
   */
  datatype Installed = Installed(root: Package, rootName: string, versions: seq<(string, Package)>)

  /** The OutOfBoundsException thrown for a package that is not installed. */
  datatype NotInstalled = OutOfBounds(packageName: string)
  {
    /** The exception message; the package name stands between its quotes. */
    function Message(): (m: string)
      ensures |m| == |packageName| + 27
      ensures m[..9] == "Package \"" && m[9..9 + |packageName|] == packageName
      ensures m[9 + |packageName|..] == "\" is not installed"
    {
      "Package \"" + packageName + "\" is not installed"
    }
  }

  /** The separator `getVersionRanges` places between version constraints. */
  const RangeSeparator: string := " || "

  /** The entry stored under `name`: the first one in array order. */
  function Lookup(versions: seq<(string, Package)>, name: string): (r: Option<Package>)
    ensures r.Some? <==> exists i :: 0 <= i < |versions| && versions[i].0 == name
    ensures r.Some? ==> exists i :: 0 <= i < |versions| && versions[i] == (name, r.value)
                           && forall j :: 0 <= j < i ==> versions[j].0 != name
    decreases |versions|
  {
    if |versions| == 0 then None
    else if versions[0].0 == name then Some(versions[0].1)
    else
      var r := Lookup(versions[1..], name);
      assert forall j :: 1 <= j < |versions| ==> versions[j] == versions[1..][j - 1];
      r
  }

  /** `getInstalledPackages()`: the package names, in array order. */
  function GetInstalledPackages(d: Installed): (names: seq<string>)
    ensures |names| == |d.versions|
    ensures forall i | 0 <= i < |names| :: names[i] == d.versions[i].0
  {
    seq(|d.versions|, i requires 0 <= i < |d.versions| => d.versions[i].0)
  }

  /** `isInstalled($name)`. */
  function IsInstalled(d: Installed, name: string): (r: bool)
    ensures r <==> exists i :: 0 <= i < |d.versions| && d.versions[i].0 == name
  {
    Lookup(d.versions, name).Some?
  }

  /** A package is installed exactly when it is among the listed package names. */
  lemma InstalledPackagesAreInstalled(d: Installed, name: string)
    ensures name in GetInstalledPackages(d) <==> IsInstalled(d, name)
  {
    var names := GetInstalledPackages(d);
    if name in names {
      var i :| 0 <= i < |names| && names[i] == name;
      assert d.versions[i].0 == name;
    }
    if IsInstalled(d, name) {
      var i :| 0 <= i < |d.versions| && d.versions[i].0 == name;
      assert names[i] == name;
    }
  }

  /** The version constraints of an entry: pretty version, then aliases, replaced and provided versions. */
  function VersionRanges(p: Package): seq<string>
  {
    (if p.prettyVersion.Some? then [p.prettyVersion.value] else [])
      + p.aliases.GetOr([]) + p.replaced.GetOr([]) + p.provided.GetOr([])
  }

  /** No constraint holds a space, the first character of the separator (true of every range in this registry). */
  predicate SpaceFree(ranges: seq<string>)
  {
    forall k | 0 <= k < |ranges| :: ' ' !in ranges[k]
  }

  /**
   * `getVersionRanges($name)`: the entry's constraints joined with " || ";
   * splitting the answer on the separator gives them back in order. Fails
   * for a package that is not installed.
   */
  function GetVersionRanges(d: Installed, name: string): (r: Result<string, NotInstalled>)
    ensures r.Err? <==> !IsInstalled(d, name)
    ensures r.Err? ==> r.error == OutOfBounds(name)
    ensures r.Ok? && VersionRanges(Lookup(d.versions, name).value) == [] ==> r.value == ""
    ensures r.Ok? && |VersionRanges(Lookup(d.versions, name).value)| > 0 && SpaceFree(VersionRanges(Lookup(d.versions, name).value))
      ==> Explode(r.value, RangeSeparator) == VersionRanges(Lookup(d.versions, name).value)
  {
    match Lookup(d.versions, name)
    case None => Err(OutOfBounds(name))
    case Some(p) =>
      var ranges := VersionRanges(p);
      JoinedRangesSplitBack(ranges);
      Ok(Implode(ranges, RangeSeparator))
  }

  /** Joined space-free constraints split back into the same constraints. */
  lemma JoinedRangesSplitBack(ranges: seq<string>)
    ensures |ranges| > 0 && SpaceFree(ranges) ==> Explode(Implode(ranges, RangeSeparator), RangeSeparator) == ranges
  {
    if |ranges| > 0 && SpaceFree(ranges) {
      ExplodeImplode(ranges, RangeSeparator);
    }
  }

  /** An entry that only lists replaced versions (a subpackage of drupal/core, say) yields exactly those. */
  lemma ReplacedOnlyRanges(d: Installed, name: string, replaced: seq<string>)
    requires Lookup(d.versions, name) == Some(Package(None, None, None, None, Some(replaced), None))
    requires |replaced| > 0 && SpaceFree(replaced)
    ensures GetVersionRanges(d, name).Ok?
    ensures Explode(GetVersionRanges(d, name).value, RangeSeparator) == replaced
  {
    assert VersionRanges(Package(None, None, None, None, Some(replaced), None)) == replaced;
  }

  /** `getVersion($name)`: the normalised version, None (NULL) when absent. */
  function GetVersion(d: Installed, name: string): (r: Result<Option<string>, NotInstalled>)
    ensures r.Err? <==> !IsInstalled(d, name)
    ensures r.Err? ==> r.error == OutOfBounds(name)
    ensures r.Ok? ==> r.value == Lookup(d.versions, name).value.version
  {
    match Lookup(d.versions, name)
    case None => Err(OutOfBounds(name))
    case Some(p) => Ok(p.version)
  }

  /** `getPrettyVersion($name)`: the version as written, None (NULL) when absent. */
  function GetPrettyVersion(d: Installed, name: string): (r: Result<Option<string>, NotInstalled>)
    ensures r.Err? <==> !IsInstalled(d, name)
    ensures r.Err? ==> r.error == OutOfBounds(name)
    ensures r.Ok? ==> r.value == Lookup(d.versions, name).value.prettyVersion
  {
    match Lookup(d.versions, name)
    case None => Err(OutOfBounds(name))
    case Some(p) => Ok(p.prettyVersion)
  }

  /** `getReference($name)`: the source reference, None (NULL) when absent, as for the root project. */
  function GetReference(d: Installed, name: string): (r: Result<Option<string>, NotInstalled>)
    ensures r.Err? <==> !IsInstalled(d, name)
    ensures r.Err? ==> r.error == OutOfBounds(name)
    ensures r.Ok? ==> r.value == Lookup(d.versions, name).value.reference
  {
    match Lookup(d.versions, name)
    case None => Err(OutOfBounds(name))
    case Some(p) => Ok(p.reference)
  }

  /** `getRootPackage()`. */
  function GetRootPackage(d: Installed): Package
  {
    d.root
  }

  /** `getRawData()`. */
  function GetRawData(d: Installed): Installed
  {
    d
  }

  /**
   * `reload($data)`: the registry afterwards. Every query then answers from
   * `data` alone, whatever was loaded before.
   */
  function Reload(current: Installed, data: Installed): (r: Installed)
    ensures GetRawData(r) == data && GetRootPackage(r) == data.root
    ensures GetInstalledPackages(r) == GetInstalledPackages(data)
    ensures forall name :: IsInstalled(r, name) <==> IsInstalled(data, name)
    ensures forall name :: GetVersionRanges(r, name) == GetVersionRanges(data, name)
    ensures forall name :: GetVersion(r, name) == GetVersion(data, name)
    ensures forall name :: GetPrettyVersion(r, name) == GetPrettyVersion(data, name)
    ensures forall name :: GetReference(r, name) == GetReference(data, name)
  {
    data
  }
}

=== FILE: php.dfy ===
/**
 * The small part of PHP's value semantics the modelled code depends on:
 * which scalars are "truthy" (what `if ($x)`, `!$x` and `empty($x)` test)
 * and the loose comparison `$x == 1`.
 */
module Php {

  /** A scalar as read from configuration or a request. */
  datatype Value = Null | Bool(b: bool) | Int(i: int) | Str(s: string)

  /** PHP converts a string to FALSE exactly when it is "" or "0". */
  predicate TruthyString(s: string)
  {
    s != "" && s != "0"
  }

  /** PHP's conversion of a scalar to boolean; `empty($x)` is its negation. */
  predicate Truthy(v: Value)
  {
    match v
    case Null => false
    case Bool(b) => b
    case Int(i) => i != 0
    case Str(s) => TruthyString(s)
  }

  /**
   * The loose comparison `$v == 1`. A boolean is compared as a boolean
   * (so TRUE == 1), an integer numerically, NULL as FALSE; a string is
   * read as the canonical numeral "1" only.
   */
  predicate LooselyEqualsOne(v: Value)
  {
    match v
    case Null => false
    case Bool(b) => b
    case Int(i) => i == 1
    case Str(s) => s == "1"
  }
}

=== FILE: post_update.dfy ===
/**
 * The identity-provider module's post-update hook that introduces the
 * 'authsource' setting of `drupalauth4ssp.settings`, seen as a
 * transformation of the configuration map.
 */
module PostUpdate {
  import Php

  /** A configuration object: key to value. */
  type Config = map<string, Php.Value>

  /** The authentication source installed when none is configured. */
  const DefaultAuthsource: string := "drupal-userpass"

  /** `$config->get('authsource')` is truthy (a missing key reads as NULL). */
  predicate HasAuthsource(c: Config)
  {
    "authsource" in c && Php.Truthy(c["authsource"])
  }

  /**
   * `drupalauth4ssp_post_update_add_authsource_param()`: when 'authsource'
   * is empty or unset, set it to the default and clear 'cookie_name';
   * otherwise leave the configuration alone.
   */
  function AddAuthsourceParam(c: Config): (r: Config)
    ensures HasAuthsource(c) ==> r == c
    ensures !HasAuthsource(c) ==> "authsource" in r && r["authsource"] == Php.Str(DefaultAuthsource) && "cookie_name" !in r
    ensures HasAuthsource(r)
    ensures forall k | k in c && k != "authsource" && k != "cookie_name" :: k in r && r[k] == c[k]
    ensures forall k | k in r :: k in c || k == "authsource"
  {
    if HasAuthsource(c) then c
    else c[ "authsource" := Php.Str(DefaultAuthsource)] - {"cookie_name"}
  }

  /** Running the update again changes nothing. */
  lemma AddAuthsourceParamIdempotent(c: Config)
    ensures AddAuthsourceParam(AddAuthsourceParam(c)) == AddAuthsourceParam(c)
  {
  }
}

=== FILE: redirect.dfy ===
/**
 * The identity-provider side's response subscriber
 * (DrupalAuthForSSPSubscriber): on the kernel's RESPONSE event it may
 * rewrite the target of a 302 redirect, either to the destination stored at
 * logout or to the `ReturnTo` query parameter after a login.
 */
module RedirectSubscriber {
  import opened Wrappers
  import Php

  /** Response::HTTP_FOUND. */
  const HttpFound: int := 302

  /** KernelEvents::RESPONSE. */
  const KernelResponse: string := "kernel.response"

  /** The route name of the login form. */
  const LoginRoute: string := "user.login"

  /** A response: a redirect carries its target URL. */
  datatype Response = Plain(status: int) | Redirect(target: string, status: int)

  /**
   * What the handler reads besides the response: the absolute front-page
   * URL, the logout destination stored by the logout hook, the request's
   * route name and its `ReturnTo` query parameter (None is NULL).
   */
  datatype Context = Context(
    frontPage: string,
    logoutDestination: Option<string>,
    route: Option<string>,
    returnTo: Option<string>)

  /** The response after the handler, whether it stopped propagation, and whether it set the user cookie. */
  datatype Handled = Handled(response: Response, stopped: bool, cookieSet: bool)

  /** A string-or-NULL value that PHP reads as true. */
  predicate Given(v: Option<string>)
  {
    v.Some? && Php.TruthyString(v.value)
  }

  /**
   * `checkRedirection($event)`. A 302 redirect to the front page is sent to
   * a non-empty stored logout destination and the handler returns at once.
   * Otherwise a 302 redirect answering the login route is sent to a
   * non-empty `ReturnTo`, after setting the user cookie. Both stop
   * propagation; everything else passes through untouched.
   */
  function CheckRedirection(response: Response, ctx: Context): (r: Handled)
    ensures r.response.Redirect? == response.Redirect? && r.response.status == response.status
    ensures !r.stopped ==> r == Handled(response, false, false)
    ensures !response.Redirect? || response.status != HttpFound ==> !r.stopped
    ensures r.stopped ==> response.Redirect? && response.status == HttpFound
    ensures r.stopped && !r.cookieSet ==>
      response.target == ctx.frontPage && Given(ctx.logoutDestination) && r.response.target == ctx.logoutDestination.value
    ensures r.cookieSet ==>
      r.stopped && ctx.route == Some(LoginRoute) && Given(ctx.returnTo) && r.response.target == ctx.returnTo.value
    ensures response.Redirect? && response.status == HttpFound && ctx.route == Some(LoginRoute) && Given(ctx.returnTo)
      ==> r.stopped
    ensures response.Redirect? && response.status == HttpFound && response.target == ctx.frontPage && Given(ctx.logoutDestination)
      ==> r == Handled(Redirect(ctx.logoutDestination.value, HttpFound), true, false)
    ensures response.Redirect? && response.status == HttpFound && !(response.target == ctx.frontPage && Given(ctx.logoutDestination))
            && ctx.route == Some(LoginRoute) && Given(ctx.returnTo)
      ==> r == Handled(Redirect(ctx.returnTo.value, HttpFound), true, true)
  {
    match response
    case Plain(_) => Handled(response, false, false)
    case Redirect(path, status) =>
      var found := status == HttpFound;
      var toFrontPage := path == ctx.frontPage && found;
      if toFrontPage && Given(ctx.logoutDestination) then
        Handled(Redirect(ctx.logoutDestination.value, status), true, false)
      else
        var isLogin := ctx.route == Some(LoginRoute);
        if isLogin && found && Given(ctx.returnTo) then
          Handled(Redirect(ctx.returnTo.value, status), true, true)
        else
          Handled(response, false, false)
  }

  /** When both rewrites apply, the logout one wins and the login branch (with its cookie) never runs. */
  lemma LogoutTakesPrecedence(target: string, ctx: Context)
    requires target == ctx.frontPage && Given(ctx.logoutDestination)
    requires ctx.route == Some(LoginRoute) && Given(ctx.returnTo)
    ensures CheckRedirection(Redirect(target, HttpFound), ctx)
         == Handled(Redirect(ctx.logoutDestination.value, HttpFound), true, false)
  {
  }

  /** `getSubscribedEvents()`: the handler listens to the kernel's RESPONSE event only. */
  function SubscribedEvents(): (r: map<string, seq<string>>)
    ensures r.Keys == {KernelResponse} && r[KernelResponse] == ["checkRedirection"]
  {
    map[KernelResponse := ["checkRedirection"]]
  }

  /** The event dispatcher delivering `event` to this subscriber. */
  function Dispatch(event: string, response: Response, ctx: Context): (r: Handled)
    ensures event != KernelResponse ==> r == Handled(response, false, false)
    ensures event == KernelResponse ==> r == CheckRedirection(response, ctx)
  {
    if event in SubscribedEvents() && "checkRedirection" in SubscribedEvents()[event]
    then CheckRedirection(response, ctx)
    else Handled(response, false, false)
  }
}

=== FILE: role_map.dfy ===
/**
 * The attribute-to-role mapping engine (`getMatchingRoles` and
 * `evalRoleRule`). A role map is a string
 *
 *   role:key,op,value;key,op,value|role:key,op,value ...
 *
 * split on '|' into rules, each rule on its FIRST ':' into a role id and a
 * body, and the body on ';' into conditions. A role is granted when any of
 * its conditions holds for the federated user's attributes.
 */
module RoleMap {
  import opened Wrappers
  import opened Strings
  import Php
  import opened AuthManager

  /** One `key,op,value` condition. */
  datatype Condition = Condition(key: string, op: string, value: string)

  /** One `role:body` rule: the role id and the body's ';'-separated parts, unparsed. */
  datatype RoleRule = RoleRule(roleId: string, parts: seq<string>)

  /**
   * The three comma fields of a condition; fields after the third are
   * ignored. A part with fewer than three fields never matches (None).
   */
  function ParseCondition(part: string): (c: Option<Condition>)
    ensures c.Some? <==> |Explode(part, ",")| >= 3
  {
    var fields := Explode(part, ",");
    if |fields| >= 3 then Some(Condition(fields[0], fields[1], fields[2])) else None
  }

  /**
   * A rule cut at its first ':'. A rule without ':' has no body; PHP then
   * splits NULL, which yields the single empty part.
   */
  function ParseRule(rule: string): (r: RoleRule)
    ensures !Contains(rule, ":") ==> r == RoleRule(rule, [""])
    ensures Contains(rule, ":") ==>
      && |r.roleId| < |rule| && rule[..|r.roleId|] == r.roleId && rule[|r.roleId|] == ':'
      && !Contains(r.roleId, ":") && r.parts == Explode(rule[|r.roleId| + 1..], ";")
  {
    var halves := ExplodeOnce(rule, ":");
    var body := if |halves| == 2 then halves[1] else "";
    RoleRule(halves[0], Explode(body, ";"))
  }

  /** The rules of a role map, in order. */
  function ParseRoleMap(roleMap: string): (rules: seq<RoleRule>)
    ensures |rules| == |Explode(roleMap, "|")|
  {
    var texts := Explode(roleMap, "|");
    seq(|texts|, i requires 0 <= i < |texts| => ParseRule(texts[i]))
  }

  /** `in_array($value, $values)`: some value is exactly the string `value`. */
  function InArray(values: seq<AttrValue>, value: string): (r: bool)
    ensures r <==> Text(value) in values
  {
    if |values| == 0 then false
    else values[0] == Text(value) || InArray(values[1..], value)
  }

  /**
   * The `array_filter(... strpos($subattr, $value) !== FALSE)` of '~=': PHP 7's
   * `strpos` gives FALSE for an empty needle, so a string value is kept
   * only when it contains a non-empty `value`; on a list value it fails its
   * argument check and gives NULL, which is not FALSE, so a list value is
   * always kept.
   */
  function AnyContains(values: seq<AttrValue>, value: string): (r: bool)
    ensures r <==> exists i :: 0 <= i < |values| && (values[i].Items? || (|value| > 0 && Contains(values[i].s, value)))
  {
    if |values| == 0 then false
    else
      (values[0].Items? || StrPos(values[0].s, value).Some?) || AnyContains(values[1..], value)
  }

  /**
   * `list($before, $after) = explode('@', array_shift($values))`: the text
   * after the first '@' of the first value, up to any second '@'. None is
   * PHP's NULL, produced by an empty list or a value without '@'.
   */
  function DomainPart(values: seq<AttrValue>): (r: Option<string>)
    ensures r.None? <==> |values| == 0 || values[0].Items? || !Contains(values[0].s, "@")
  {
    if |values| == 0 || values[0].Items? then None
    else
      var pieces := Explode(values[0].s, "@");
      if |pieces| >= 2 then Some(pieces[1]) else None
  }

  /**
   * `evalRoleRule` on a parsed condition. '=' is membership, '~=' is a
   * substring test against every value, '@=' compares the domain of the
   * first value (NULL, from an empty list, a list-valued first value or a
   * value without '@', compares equal to the empty string only); a key absent
   * from the attributes and an unknown operator never match.
   */
  function EvalCondition(c: Condition, attrs: Attributes): (r: bool)
    ensures c.key !in attrs ==> !r
    ensures c.op !in {"=", "@=", "~="} ==> !r
    ensures c.key in attrs && c.op == "=" ==> (r <==> Text(c.value) in attrs[c.key])
    ensures c.key in attrs && c.op == "~=" ==>
      (r <==> exists i :: 0 <= i < |attrs[c.key]|
                && (attrs[c.key][i].Items? || (|c.value| > 0 && Contains(attrs[c.key][i].s, c.value))))
    ensures c.key in attrs && c.op == "@=" && (|attrs[c.key]| == 0 || attrs[c.key][0].Items?) ==>
      (r <==> c.value == "")
  {
    if c.key !in attrs then false
    else
      var values := attrs[c.key];
      if c.op == "=" then InArray(values, c.value)
      else if c.op == "@=" then
        (match DomainPart(values)
         case None => c.value == ""
         case Some(after) => after == c.value)
      else if c.op == "~=" then AnyContains(values, c.value)
      else false
  }

  /** One ';'-separated part of a rule body holds. */
  function EvalPart(part: string, attrs: Attributes): (r: bool)
    ensures |Explode(part, ",")| < 3 ==> !r
    ensures |Explode(part, ",")| >= 3 ==> var f := Explode(part, ",");
      (r <==> EvalCondition(Condition(f[0], f[1], f[2]), attrs))
  {
    match ParseCondition(part)
    case None => false
    case Some(c) => EvalCondition(c, attrs)
  }

  /** Some part of the rule holds. */
  predicate RuleFires(rule: RoleRule, attrs: Attributes)
  {
    exists j | 0 <= j < |rule.parts| :: EvalPart(rule.parts[j], attrs)
  }

  /** Reference meaning of the role map: some rule for `role` fires. */
  ghost predicate Granted(rules: seq<RoleRule>, attrs: Attributes, role: string)
  {
    exists i :: 0 <= i < |rules| && rules[i].roleId == role && RuleFires(rules[i], attrs)
  }

  /** A role map whose every entry maps a role id to itself. */
  ghost predicate SelfKeyed(roles: map<string, string>)
  {
    forall k | k in roles :: roles[k] == k
  }

  /** The loop of `getMatchingRoles`: every firing rule stores `$roles[$role_id] = $role_id`. */
  function CollectRoles(rules: seq<RoleRule>, attrs: Attributes, acc: map<string, string>): (r: map<string, string>)
    requires SelfKeyed(acc)
    ensures SelfKeyed(r)
    ensures forall role :: role in r <==> role in acc || Granted(rules, attrs, role)
    decreases |rules|
  {
    if |rules| == 0 then acc
    else
      var id := rules[0].roleId;
      var acc' := if RuleFires(rules[0], attrs) then acc[id := id] else acc;
      var r := CollectRoles(rules[1..], attrs, acc');
      forall role
        ensures Granted(rules, attrs, role) <==> (role == id && RuleFires(rules[0], attrs)) || Granted(rules[1..], attrs, role)
      {
        if Granted(rules, attrs, role) {
          var i :| 0 <= i < |rules| && rules[i].roleId == role && RuleFires(rules[i], attrs);
          if i > 0 {
            assert rules[1..][i - 1] == rules[i];
          }
        }
        if Granted(rules[1..], attrs, role) {
          var i :| 0 <= i < |rules[1..]| && rules[1..][i].roleId == role && RuleFires(rules[1..][i], attrs);
          assert rules[i + 1] == rules[1..][i];
        }
      }
      r
  }

  /**
   * The roles the rules of `getMatchingRoles` grant, before other modules
   * alter them: empty for an empty (or "0") role map, otherwise exactly the
   * roles some rule of the map grants, each keyed by itself.
   */
  function RuleRoles(roleMap: string, attrs: Attributes): (r: map<string, string>)
    ensures SelfKeyed(r)
    ensures !Php.TruthyString(roleMap) ==> r == map[]
    ensures forall role :: role in r <==> Php.TruthyString(roleMap) && Granted(ParseRoleMap(roleMap), attrs, role)
  {
    if Php.TruthyString(roleMap) then CollectRoles(ParseRoleMap(roleMap), attrs, map[]) else map[]
  }

  /**
   * `getMatchingRoles()`: the rule-derived roles after the
   * `simplesamlphp_auth_user_roles` alter hook, which is a parameter here.
   * With no module altering them, the answer is exactly the granted roles.
   */
  function MatchingRoles(
    roleMap: string, attrs: Attributes,
    alter: (map<string, string>, Attributes) -> map<string, string>): (r: map<string, string>)
    ensures (forall m, a :: alter(m, a) == m) ==>
      SelfKeyed(r) && forall role :: role in r <==> Php.TruthyString(roleMap) && Granted(ParseRoleMap(roleMap), attrs, role)
  {
    alter(RuleRoles(roleMap, attrs), attrs)
  }

  // ---- The role-map grammar, and the parser's agreement with it ----

  /** Writes a condition as `key,op,value`. */
  function FormatCondition(c: Condition): string
  {
    Implode([c.key, c.op, c.value], ",")
  }

  /** Writes a rule as `role:cond;cond;...`. */
  function FormatRule(roleId: string, conditions: seq<Condition>): string
  {
    roleId + ":" + Implode(seq(|conditions|, j requires 0 <= j < |conditions| => FormatCondition(conditions[j])), ";")
  }

  /** Writes a role map as `rule|rule|...`. */
  function FormatRoleMap(rules: seq<(string, seq<Condition>)>): string
  {
    Implode(seq(|rules|, i requires 0 <= i < |rules| => FormatRule(rules[i].0, rules[i].1)), "|")
  }

  /** No field of a condition holds one of the map's three separators; ':' is allowed. */
  predicate PlainCondition(c: Condition)
  {
    && ',' !in c.key && ',' !in c.op && ',' !in c.value
    && ';' !in c.key && ';' !in c.op && ';' !in c.value
    && '|' !in c.key && '|' !in c.op && '|' !in c.value
  }

  /** Rules the grammar can express: a non-empty list of rules, each with an id free of ':' and '|' and at least one plain condition. */
  predicate WellFormed(rules: seq<(string, seq<Condition>)>)
  {
    && |rules| >= 1
    && forall i | 0 <= i < |rules| ::
         && ':' !in rules[i].0 && '|' !in rules[i].0
         && |rules[i].1| >= 1
         && forall j | 0 <= j < |rules[i].1| :: PlainCondition(rules[i].1[j])
  }

  /** A character in neither the pieces nor the separator is not in their join. */
  lemma {:induction false} CharNotInImplode(parts: seq<string>, sep: string, ch: char)
    requires ch !in sep
    requires forall k | 0 <= k < |parts| :: ch !in parts[k]
    ensures ch !in Implode(parts, sep)
    decreases |parts|
  {
    if |parts| > 1 {
      CharNotInImplode(parts[1..], sep, ch);
    }
  }

  /** A formatted condition parses back to itself. */
  lemma ConditionRoundTrip(c: Condition)
    requires PlainCondition(c)
    ensures ParseCondition(FormatCondition(c)) == Some(c)
  {
    var fields := [c.key, c.op, c.value];
    ExplodeImplode(fields, ",");
  }

  /** A rule cut at its first ':' keeps any later ':' in its body (a value such as `http://…` is safe). */
  lemma ParseRuleAtFirstColon(roleId: string, body: string)
    requires ':' !in roleId
    ensures ParseRule(roleId + ":" + body) == RoleRule(roleId, Explode(body, ";"))
  {
    FindFirstAfterFreePrefix(roleId, ":", body);
    assert (roleId + ":" + body)[..|roleId|] == roleId;
    assert (roleId + ":" + body)[|roleId| + 1..] == body;
  }

  /** A formatted rule parses back into its id and its conditions, in order. */
  lemma RuleRoundTrip(roleId: string, conditions: seq<Condition>)
    requires ':' !in roleId && |conditions| >= 1
    requires forall j | 0 <= j < |conditions| :: PlainCondition(conditions[j])
    ensures ParseRule(FormatRule(roleId, conditions)).roleId == roleId
    ensures |ParseRule(FormatRule(roleId, conditions)).parts| == |conditions|
    ensures forall j | 0 <= j < |conditions| ::
      ParseCondition(ParseRule(FormatRule(roleId, conditions)).parts[j]) == Some(conditions[j])
  {
    var texts := seq(|conditions|, j requires 0 <= j < |conditions| => FormatCondition(conditions[j]));
    forall j | 0 <= j < |conditions|
      ensures ';' !in texts[j]
    {
      CharNotInImplode([conditions[j].key, conditions[j].op, conditions[j].value], ",", ';');
    }
    ParseRuleAtFirstColon(roleId, Implode(texts, ";"));
    ExplodeImplode(texts, ";");
    forall j | 0 <= j < |conditions|
      ensures ParseCondition(texts[j]) == Some(conditions[j])
    {
      ConditionRoundTrip(conditions[j]);
    }
  }

  /**
   * The parser agrees with the grammar: a well-formed role map, once
   * written out, parses back into the same rules and conditions.
   */
  lemma RoleMapRoundTrip(rules: seq<(string, seq<Condition>)>)
    requires WellFormed(rules)
    ensures |ParseRoleMap(FormatRoleMap(rules))| == |rules|
    ensures forall i | 0 <= i < |rules| ::
      && ParseRoleMap(FormatRoleMap(rules))[i].roleId == rules[i].0
      && |ParseRoleMap(FormatRoleMap(rules))[i].parts| == |rules[i].1|
      && forall j | 0 <= j < |rules[i].1| ::
           ParseCondition(ParseRoleMap(FormatRoleMap(rules))[i].parts[j]) == Some(rules[i].1[j])
  {
    var texts := seq(|rules|, i requires 0 <= i < |rules| => FormatRule(rules[i].0, rules[i].1));
    forall i | 0 <= i < |rules|
      ensures '|' !in texts[i]
    {
      var conds := rules[i].1;
      var condTexts := seq(|conds|, j requires 0 <= j < |conds| => FormatCondition(conds[j]));
      forall j | 0 <= j < |conds|
        ensures '|' !in condTexts[j]
      {
        CharNotInImplode([conds[j].key, conds[j].op, conds[j].value], ",", '|');
      }
      CharNotInImplode(condTexts, ";", '|');
      assert texts[i] == rules[i].0 + ":" + Implode(condTexts, ";");
    }
    ExplodeImplode(texts, "|");
    forall i | 0 <= i < |rules|
      ensures ParseRoleMap(FormatRoleMap(rules))[i] == ParseRule(FormatRule(rules[i].0, rules[i].1))
    {
    }
    forall i | 0 <= i < |rules|
      ensures ParseRule(FormatRule(rules[i].0, rules[i].1)).roleId == rules[i].0
      ensures |ParseRule(FormatRule(rules[i].0, rules[i].1)).parts| == |rules[i].1|
      ensures forall j | 0 <= j < |rules[i].1| ::
        ParseCondition(ParseRule(FormatRule(rules[i].0, rules[i].1)).parts[j]) == Some(rules[i].1[j])
    {
      RuleRoundTrip(rules[i].0, rules[i].1);
    }
  }

  // ---- What the engine grants ----

  /** '@=' compares the text after the '@' of the first value with the rule's value. */
  lemma DomainComparison(c: Condition, attrs: Attributes, local: string, domain: string, rest: seq<AttrValue>)
    requires c.op == "@=" && c.key in attrs && attrs[c.key] == [Text(local + "@" + domain)] + rest
    requires '@' !in local && '@' !in domain
    ensures EvalCondition(c, attrs) <==> domain == c.value
  {
    assert Implode([local, domain], "@") == local + "@" + domain;
    ExplodeImplode([local, domain], "@");
  }

  /** '@=' on a first value without '@' sees PHP's NULL, which only the empty rule value equals. */
  lemma DomainComparisonWithoutAt(c: Condition, attrs: Attributes, first: string, rest: seq<AttrValue>)
    requires c.op == "@=" && c.key in attrs && attrs[c.key] == [Text(first)] + rest
    requires '@' !in first
    ensures EvalCondition(c, attrs) <==> c.value == ""
  {
    NotFoundWithoutLead(first, "@");
  }

  /** The joined string starts with the first piece. */
  lemma ImplodeStartsWithFirst(parts: seq<string>, sep: string)
    requires |parts| >= 1
    ensures parts[0] <= Implode(parts, sep)
  {
  }

  /** A formatted role map is never one of PHP's falsy strings. */
  lemma FormattedRoleMapIsTruthy(rules: seq<(string, seq<Condition>)>)
    requires |rules| >= 1
    ensures Php.TruthyString(FormatRoleMap(rules))
  {
    var texts := seq(|rules|, i requires 0 <= i < |rules| => FormatRule(rules[i].0, rules[i].1));
    ImplodeStartsWithFirst(texts, "|");
    var s := FormatRoleMap(rules);
    var id := rules[0].0;
    assert texts[0][|id|] == ':';
    assert s[|id|] == ':';
  }

  /**
   * For a role map written from well-formed rules, a role is matched
   * exactly when one of the conditions of a rule for that role holds.
   */
  lemma FormattedRoleMapGrants(rules: seq<(string, seq<Condition>)>, attrs: Attributes, role: string)
    requires WellFormed(rules)
    ensures role in RuleRoles(FormatRoleMap(rules), attrs) <==>
      exists i, j :: 0 <= i < |rules| && 0 <= j < |rules[i].1| && rules[i].0 == role && EvalCondition(rules[i].1[j], attrs)
  {
    var parsed := ParseRoleMap(FormatRoleMap(rules));
    RoleMapRoundTrip(rules);
    FormattedRoleMapIsTruthy(rules);
    forall i, j | 0 <= i < |rules| && 0 <= j < |rules[i].1|
      ensures EvalPart(parsed[i].parts[j], attrs) == EvalCondition(rules[i].1[j], attrs)
    {
    }
    if role in RuleRoles(FormatRoleMap(rules), attrs) {
      var i :| 0 <= i < |parsed| && parsed[i].roleId == role && RuleFires(parsed[i], attrs);
      var j :| 0 <= j < |parsed[i].parts| && EvalPart(parsed[i].parts[j], attrs);
      assert EvalCondition(rules[i].1[j], attrs);
    }
    if exists i, j :: 0 <= i < |rules| && 0 <= j < |rules[i].1| && rules[i].0 == role && EvalCondition(rules[i].1[j], attrs) {
      var i, j :| 0 <= i < |rules| && 0 <= j < |rules[i].1| && rules[i].0 == role && EvalCondition(rules[i].1[j], attrs);
      assert EvalPart(parsed[i].parts[j], attrs);
      assert RuleFires(parsed[i], attrs);
      assert Granted(parsed, attrs, role);
    }
  }

  /** A role map of one rule with one condition is written `role:key,op,value`. */
  lemma FormatSingleRule(roleId: string, c: Condition)
    ensures FormatRoleMap([(roleId, [c])]) == roleId + ":" + c.key + "," + c.op + "," + c.value
  {
    var fields := [c.key, c.op, c.value];
    assert fields[1..] == [c.op, c.value] && fields[1..][1..] == [c.value];
    assert Implode([c.op, c.value], ",") == c.op + "," + c.value;
    assert FormatCondition(c) == c.key + "," + (c.op + "," + c.value);
    var conds := seq(1, j requires 0 <= j < 1 => FormatCondition([c][j]));
    assert conds == [FormatCondition(c)];
    var texts := seq(1, i requires 0 <= i < 1 => FormatRule([(roleId, [c])][i].0, [(roleId, [c])][i].1));
    assert texts == [FormatRule(roleId, [c])];
  }

  /** A one-rule, one-condition map grants its role exactly when the condition holds. */
  lemma SingleRuleGrants(roleId: string, c: Condition, attrs: Attributes)
    requires ':' !in roleId && '|' !in roleId && PlainCondition(c)
    ensures RuleRoles(FormatRoleMap([(roleId, [c])]), attrs)
         == if EvalCondition(c, attrs) then map[roleId := roleId] else map[]
  {
    var rules := [(roleId, [c])];
    var r := RuleRoles(FormatRoleMap(rules), attrs);
    forall role
      ensures role in r <==> role == roleId && EvalCondition(c, attrs)
    {
      FormattedRoleMapGrants(rules, attrs, role);
    }
  }
}

=== FILE: strings.dfy ===
/**
 * PHP's string primitives used by the modelled code: `strpos` (first
 * occurrence of a needle), `explode` (split on a separator, with and without
 * a limit of two) and `implode` (join with a separator), together with the
 * two round trips that relate `explode` and `implode`.
 */
module Strings {
  import opened Wrappers

  /** `sub` occurs in `s` starting at offset `i`. */
  predicate OccursAt(s: string, sub: string, i: nat)
  {
    i + |sub| <= |s| && s[i..i + |sub|] == sub
  }

  /** `s` contains `sub` somewhere; every string contains the empty string. */
  ghost predicate Contains(s: string, sub: string)
  {
    exists i: nat :: i <= |s| && OccursAt(s, sub, i)
  }

  /**
   * The offset of the first occurrence of `sub` in `s`, or None. This is the
   * search `explode` performs; an empty `sub` is found at offset 0.
   */
  function FindFirst(s: string, sub: string): (r: Option<nat>)
    ensures r.Some? ==> OccursAt(s, sub, r.value)
    ensures r.Some? ==> forall j: nat :: j < r.value ==> !OccursAt(s, sub, j)
    ensures r.None? <==> !Contains(s, sub)
    decreases |s|
  {
    if |s| < |sub| then None
    else if s[..|sub|] == sub then Some(0)
    else
      var rest := FindFirst(s[1..], sub);
      forall j: nat | 1 <= j
        ensures OccursAt(s, sub, j) <==> OccursAt(s[1..], sub, j - 1)
      {
        if j + |sub| <= |s| {
          SliceOfTail(s, j, |sub|);
        }
      }
      match rest
      case None => None
      case Some(k) => Some(k + 1)
  }

  /**
   * `strpos($s, $sub)` as PHP 7 computes it on a string haystack: the offset
   * of the first occurrence, or None (FALSE). An empty needle is rejected
   * with a warning and also yields FALSE.
   */
  function StrPos(s: string, sub: string): (r: Option<nat>)
    ensures r.Some? <==> |sub| > 0 && Contains(s, sub)
    ensures r.Some? ==> OccursAt(s, sub, r.value) && forall j: nat :: j < r.value ==> !OccursAt(s, sub, j)
  {
    if |sub| == 0 then None else FindFirst(s, sub)
  }

  /** A slice of `s[1..]` is the slice of `s` one position further on. */
  lemma SliceOfTail(s: string, j: nat, n: nat)
    requires 1 <= j && j + n <= |s|
    ensures s[1..][j - 1..j - 1 + n] == s[j..j + n]
  {
  }

  /**
   * `explode($sep, $s)`: the pieces of `s` between occurrences of `sep`,
   * scanning left to right. There is always at least one piece.
   */
  function Explode(s: string, sep: string): (parts: seq<string>)
    requires |sep| > 0
    ensures |parts| >= 1
    ensures FindFirst(s, sep).None? ==> parts == [s]
    ensures FindFirst(s, sep).Some? ==> |parts| >= 2 && parts[0] == s[..FindFirst(s, sep).value]
    decreases |s|
  {
    match FindFirst(s, sep)
    case None => [s]
    case Some(i) => [s[..i]] + Explode(s[i + |sep|..], sep)
  }

  /**
   * `explode($sep, $s, 2)`: `s` cut at the first occurrence of `sep` only,
   * so the second piece may itself contain `sep`.
   */
  function ExplodeOnce(s: string, sep: string): (parts: seq<string>)
    requires |sep| > 0
    ensures 1 <= |parts| <= 2
    ensures |parts| == 1 <==> !Contains(s, sep)
    ensures |parts| == 1 ==> parts[0] == s
    ensures |parts| == 2 ==> parts[0] + sep + parts[1] == s && !Contains(parts[0], sep)
  {
    match FindFirst(s, sep)
    case None => [s]
    case Some(i) =>
      assert s == s[..i] + sep + s[i + |sep|..];
      PrefixBeforeFirstIsFree(s, sep, i);
      [s[..i], s[i + |sep|..]]
  }

  /** Nothing before the first occurrence of `sep` contains `sep`. */
  lemma PrefixBeforeFirstIsFree(s: string, sep: string, i: nat)
    requires |sep| > 0 && FindFirst(s, sep) == Some(i)
    ensures !Contains(s[..i], sep)
  {
    var p := s[..i];
    forall j: nat | j <= i
      ensures !OccursAt(p, sep, j)
    {
      if j + |sep| <= i {
        assert j < i;
        assert !OccursAt(s, sep, j);
        assert p[j..j + |sep|] == s[j..j + |sep|];
      }
    }
  }

  /** `implode($sep, $parts)`: the parts joined with `sep` between neighbours. */
  function Implode(parts: seq<string>, sep: string): (r: string)
    ensures |parts| == 0 ==> r == ""
    ensures |parts| >= 1 ==> |r| >= |parts[0]| && r[..|parts[0]|] == parts[0]
    ensures |parts| >= 2 ==> |r| >= |parts[0]| + |sep| && r[|parts[0]|..|parts[0]| + |sep|] == sep
    decreases |parts|
  {
    if |parts| == 0 then ""
    else if |parts| == 1 then parts[0]
    else parts[0] + sep + Implode(parts[1..], sep)
  }

  /** Splitting a string and joining the pieces with the same separator gives the string back. */
  lemma {:induction false} ImplodeExplode(s: string, sep: string)
    requires |sep| > 0
    ensures Implode(Explode(s, sep), sep) == s
    decreases |s|
  {
    match FindFirst(s, sep)
    case None =>
    case Some(i) =>
      var rest := s[i + |sep|..];
      var tail := Explode(rest, sep);
      ImplodeExplode(rest, sep);
      assert Explode(s, sep) == [s[..i]] + tail;
      var parts := [s[..i]] + tail;
      assert parts[0] == s[..i] && parts[1..] == tail && |parts| >= 2;
      assert Implode(parts, sep) == s[..i] + sep + Implode(tail, sep);
      assert s == s[..i] + sep + rest;
  }

  /** A string in which the first character of `sep` never appears cannot contain `sep`. */
  lemma NotFoundWithoutLead(s: string, sep: string)
    requires |sep| > 0 && sep[0] !in s
    ensures FindFirst(s, sep).None?
  {
    forall i: nat | i <= |s|
      ensures !OccursAt(s, sep, i)
    {
      if i + |sep| <= |s| {
        assert s[i..i + |sep|][0] == s[i];
      }
    }
  }

  /** When `x` holds no character that could start `sep`, the first `sep` in `x + sep + t` is the one right after `x`. */
  lemma {:induction false} FindFirstAfterFreePrefix(x: string, sep: string, t: string)
    requires |sep| > 0 && sep[0] !in x
    ensures FindFirst(x + sep + t, sep) == Some(|x|)
    decreases |x|
  {
    var s := x + sep + t;
    if |x| == 0 {
      assert s[..|sep|] == sep;
    } else {
      assert s[..|sep|][0] == x[0] && x[0] != sep[0];
      assert s[1..] == x[1..] + sep + t;
      FindFirstAfterFreePrefix(x[1..], sep, t);
    }
  }

  /**
   * Joining pieces with `sep` and splitting the result on `sep` gives the
   * pieces back, provided no piece holds the separator's first character.
   */
  lemma {:induction false} ExplodeImplode(parts: seq<string>, sep: string)
    requires |sep| > 0 && |parts| >= 1
    requires forall k :: 0 <= k < |parts| ==> sep[0] !in parts[k]
    ensures Explode(Implode(parts, sep), sep) == parts
    decreases |parts|
  {
    if |parts| == 1 {
      NotFoundWithoutLead(parts[0], sep);
    } else {
      var head, tail := parts[0], parts[1..];
      var t := Implode(tail, sep);
      ExplodeAfterFreePrefix(head, sep, t);
      ExplodeImplode(tail, sep);
      assert parts == [head] + tail;
    }
  }

  /** Exploding `x + sep + t`, where `x` cannot hold `sep`, splits off `x` first. */
  lemma ExplodeAfterFreePrefix(x: string, sep: string, t: string)
    requires |sep| > 0 && sep[0] !in x
    ensures Explode(x + sep + t, sep) == [x] + Explode(t, sep)
  {
    var s := x + sep + t;
    FindFirstAfterFreePrefix(x, sep, t);
    assert s[..|x|] == x;
    assert s[|x| + |sep|..] == t;
  }
}

=== FILE: wrappers.dfy ===
/**
 * Failure-carrying datatypes shared by the whole model. PHP code in this
 * system signals absence with NULL/FALSE and failure with exceptions; the
 * model uses `Option` for the former and `Result` for the latter.
 */
module Wrappers {

  datatype Option<+T> = None | Some(value: T) {

    /** The wrapped value, or `default` when there is none. */
    function GetOr(default: T): T
    {
      match this
      case Some(v) => v
      case None => default
    }
  }

  datatype Result<+T, +E> = Ok(value: T) | Err(error: E)
}
